=== FILE: README.md ===
# Quadratic voting: a Dafny model of the commit–reveal ledger and its front end

The system runs polls in three timed phases:
- A poll's admin approves voters and registers candidates.
- During the commit phase a voter hides a vote behind a hash and pays a deposit. The deposit is the square of the number of votes times the price of the first vote.
- During the reveal phase the voter opens the commitment. The votes go to the chosen candidate, and the voter gets back an equal share of all deposits per vote.
- Once the reveal phase is over, anyone may complete the poll. Completion reports the winner (0 for a tie) and sends what was not refunded to the poll's charity.
- An owner-controlled circuit breaker stops poll creation, commits and reveals. While it is tripped, a voter can take a refund without voting. It is paid at the reveal rate, floor(totalWeiPaid / totalVotesCommitted) × numVotes, which is less than the deposit for a voter who bought more votes than the average.

The ledger's source is not part of this model. Its behaviour is taken from the contract's test suite, `test/quadraticVoting.js`, and every ledger row below cites that suite. Where the suite leaves a detail open, the choice made is listed under "Modelling choices".

Files and modules:

- `schedule.dfy` (`Schedule`): the four phases with their codes 0 to 3, and the schedule.
  - The schedule is a start (commit phase), a close (reveal phase) and a reveal end `close + (close − start)`.
  - `ScheduledPhase` gives the phase the clock alone puts a poll in.
- `tally.dfy` (`Tally`): the winner of a poll. It is the candidate whose positive count is strictly above every other count, or 0 when there is none.
- `ledger.dfy` (`Ledger`): the ledger as an immutable record with maps keyed by poll id, by (poll id, candidate id) and by (poll id, voter).
  - Every operation is a pure function of the ledger, the caller, the payment and the time `now`.
  - It returns `Revert` (the ledger is unchanged), `NoOp(state)` or `Ok(state, value)`.
  - `NoOp` is the lazy phase transition. The first commit or reveal after a phase boundary writes the new phase, and if it does not apply in that phase it stops there without reverting.
  - The commitment hash `H(pollId, numVotes, candidateId, salt)` is a function-valued parameter.
- `calls.dfy` (`Calls`): sequences of transactions, with these results:
  - a redeemed commitment stays redeemed;
  - a completed poll stays completed, and its money totals are frozen;
  - a poll's stored phase never moves backward, and with calls in time order it is never ahead of the schedule;
  - a poll in its reveal phase whose refunds exceed its deposits can never be completed;
  - conservation: along traces with no commit after a refund in the poll, refunds never exceed deposits.
- `ledger_facts.dfy` (`LedgerFacts`): the behaviours the test suite checks, stated for all inputs.
- `poll_lists.dfy` (`PollLists`): the admin's and the voter's poll tables.
  - Each table derives a poll's status from its schedule and the browser clock.
  - The admin table removes handed-over polls with `splice(k)`.
  - The voter table's button labels.
- `make_poll_form.dfy` (`MakePollForm`): the poll-creation form, with its ordered checks and its window arithmetic.
- `agreement.dfy` (`Agreement`): how the front end agrees with the ledger.
  - Before the reveal phase ends, the status a table shows is the phase the ledger's next commit or reveal writes.
  - For a running ledger, time stamps that fit 32 bits and equal clocks, the form requests exactly the polls the ledger accepts.

Modelling choices for what the test suite leaves open:
- The circuit breaker is checked before the phase gate. While the ledger is stopped, commit and reveal revert without writing a phase.
- The lazy transition moves the stored phase forward to the scheduled phase but never past the reveal phase. Only `commitVote` and `revealVote` perform it. `completePoll` writes the completed phase. `approveVoter`, `addCandidate`, `transferAdmin`, `withdraw` and `toggleContractActive` leave the stored phase alone.
- A reveal also needs `now` to lie before the end of the reveal window, and the named candidate to be registered.
- `withdraw` has no phase gate, except that it refuses a completed poll, whose deposits have already been paid out. The suite withdraws during the commit window (`test/quadraticVoting.js:636`).
- `completePoll` does not consult the circuit breaker. It reverts when a poll's refunds exceed its deposits, because the donation would be negative. That state is reachable. A withdraw during the commit window is paid at the rate of that moment. Further commits can then lower the rate below it, and the later reveals no longer leave enough. Once a reveal has pushed a poll's refunds above its deposits, the poll is in its reveal phase, no commit can follow, and it can never be completed (`Calls.OverdrawingRevealIsFinal`).
- `makePoll` accepts a start up to seven minutes in the past. This grace is taken from the form. The suite shows only that a start at the current block time is accepted (`test/quadraticVoting.js:690`).
- `makePoll` stores time stamps in 32 bits and rejects a schedule whose reveal end does not fit. That is how the suite's oversized poll is refused (`test/quadraticVoting.js:831-839`).
- Candidate ids are 8 bits wide, so a poll holds at most 255 candidates.
- A refund needs at least one committed vote in the poll, because the refund divides by the committed total.

## Model

| member | source | states |
|---|---|---|
| Schedule.ScheduledPhase | src/js/components/voter/PollsVotingIn.js:33-56 | the schedule puts a poll in Created iff now < start, in Commit iff start ≤ now < close, in Reveal iff close ≤ now < close + (close − start), and in Completed otherwise |
| Schedule.ScheduledPhaseMonotone | src/js/components/admin/PollsAdminFor.js:92-100 | for a schedule with start < close, the phase never moves backward as the clock advances |
| Tally.ScanTo | test/quadraticVoting.js:465-470 | after scanning the first n counts, the scan holds the highest count and a candidate that has it, and records whether another candidate shares it |
| Tally.Winner | test/quadraticVoting.js:355-359 | a non-zero result is a candidate whose positive count is strictly above every other; the result is 0 exactly when no candidate has that property |
| Ledger.Deploy | test/quadraticVoting.js:136-142 | the deploying account becomes the owner; the breaker is off and there are no polls |
| Ledger.Advance | test/quadraticVoting.js:277-286 | the phase a call writes first never moves backward, reaches at least the phase the clock has reached (capped at Reveal), and is Completed only if the poll already was |
| Ledger.PhaseGate | test/quadraticVoting.js:277-295 | a call proceeds iff the advanced phase is the one it needs; it stops without reverting iff a boundary was crossed into another phase; otherwise it reverts |
| Ledger.ToggleContractActive | test/quadraticVoting.js:606-610 | only the owner can flip the breaker, and nothing else changes |
| Ledger.MakePoll | test/quadraticVoting.js:146-170 | creation succeeds iff the ledger runs, the schedule is acceptable and the cost is at least 1; the new poll gets the next id, the caller as admin, the given times, cost and description, and zero totals |
| Ledger.ApproveVoter | test/quadraticVoting.js:176-182 | succeeds iff the caller is the poll's admin, and then only adds the (poll, voter) pair |
| Ledger.AddCandidate | test/quadraticVoting.js:184-191 | succeeds iff the caller is the admin and fewer than 255 candidates exist; the new candidate gets the next id, 0 votes and the given name |
| Ledger.TransferAdmin | test/quadraticVoting.js:193-199 | succeeds iff the caller is the admin, and then only replaces the admin |
| Ledger.CommitVote | test/quadraticVoting.js:216-260 | a commit succeeds iff the ledger runs, the poll is in its commit phase, the voter is approved and has not committed, and pays exactly numVotes² × firstVoteCost for at least one vote; the cost and votes are added to the totals |
| Ledger.RevealVote | test/quadraticVoting.js:298-328 | a matching reveal in the reveal window adds the votes to the candidate, pays floor(totalWeiPaid / totalVotesCommitted) × numVotes, and raises totalWeiRefunded by that amount; it fails when stopped, redeemed or mismatched |
| Ledger.Withdraw | test/quadraticVoting.js:636-657 | works iff the breaker is tripped, an unredeemed matching commitment exists and the poll is not completed; pays floor(totalWeiPaid / totalVotesCommitted) × numVotes, the reveal's refund and not the deposit, and changes no vote count |
| Ledger.CompletePoll | test/quadraticVoting.js:346-371 | succeeds iff the poll is not completed, the reveal window is over and the refunds do not exceed the deposits; reports the strict winner or 0, donates totalWeiPaid − totalWeiRefunded and writes only the phase, Completed |
| Calls.NoRevealAfterWithdraw | test/quadraticVoting.js:733-739 | after a withdraw, whatever transactions follow (the breaker being reset included), that voter can neither reveal nor withdraw again in that poll |
| Calls.NoSecondReveal | test/quadraticVoting.js:330-336 | after a reveal, no later reveal or withdraw by the same voter in that poll succeeds, so a voter is refunded at most once |
| Calls.CompleteOnce | test/quadraticVoting.js:369-371 | a completed poll stays completed, so completing it again reverts and the charity is paid once; no refund follows, so the donation plus the refunds stay equal to the deposits |
| Calls.RunKeepsIdsIssued | test/quadraticVoting.js:146-170 | along any trace, every poll keeps an id that makePoll has issued (1 to pollCount), so a new poll never overwrites an existing one |
| Calls.ReachableIdsIssued | test/quadraticVoting.js:146-170 | every ledger reachable from deployment has only issued poll ids, so the trace lemmas that assume this apply to it |
| Calls.RunKeepsOverdrawn | test/quadraticVoting.js:287-295 | a poll in its reveal phase whose refunds exceed its deposits stays so along any trace: no commit succeeds any more, refunds only grow and completion reverts |
| Calls.OverdrawingRevealIsFinal | test/quadraticVoting.js:346-371 | once a reveal has pushed a poll's refunds above its deposits, no later sequence of transactions lets the poll be completed |
| Calls.PhaseNeverAheadOfClock | test/quadraticVoting.js:277-295 | on a ledger deployed and then called in time order, every poll has start < close and a stored phase that its schedule has reached at any later instant |
| Calls.RunPhaseMonotone | test/quadraticVoting.js:293-294 | along any sequence of transactions a poll's stored phase never moves backward |
| Calls.RunInv | test/quadraticVoting.js:441-460 | along any trace with no commit after a refund in its poll, each poll's committed votes are the sum over its commitments and its refunds are the rate times the redeemed votes |
| Calls.Conservation | test/quadraticVoting.js:472-477 | from deployment, under the same trace condition, refunds never exceed deposits; a poll past its reveal window can be completed, and it donates exactly the deposits not refunded |
| LedgerFacts.LateCommitOnlyAdvancesPhase | test/quadraticVoting.js:287-295 | the first commit after the reveal phase begins does not revert; it writes phase 2 and commits nothing |
| LedgerFacts.EarlyCallsRevert | test/quadraticVoting.js:216-222 | a commit before the commit phase reverts, and so does a reveal before the reveal phase |
| LedgerFacts.LateRevealRejected | test/quadraticVoting.js:479-485 | no reveal succeeds after the reveal window, and every reveal reverts once the poll is completed |
| LedgerFacts.UnderpaymentRejected | test/quadraticVoting.js:235-241 | paying one less than the quadratic cost never commits |
| LedgerFacts.OnlyOwnTupleOpens | test/quadraticVoting.js:414-420 | with a hash that separates its inputs, only the committed (candidate, salt) opens a commitment, so replaying another voter's tuple fails |
| LedgerFacts.SoleCommitterFullRefund | test/quadraticVoting.js:310-320 | a sole committer's refund equals everything that was paid |
| LedgerFacts.OversizedPollRejected | test/quadraticVoting.js:831-839 | the poll with times 43000000000 / 43000000001 and cost 43000000000 is rejected |
| LedgerFacts.CandidateCap | test/quadraticVoting.js:843-853 | the first 255 registrations succeed and every later one fails |
| LedgerFacts.SuiteWinners | test/quadraticVoting.js:551-556 | 5 to 0 and 5 to 3 elect candidate 1; 5 to 5 is a tie (0) |
| PollLists.DerivedStatus | src/js/components/admin/PollsAdminFor.js:60-67 | the status is "Created" iff now < start, "Commit Phase" iff start ≤ now < close, "Reveal Phase" iff close ≤ now < close + (close − start), and "Completed" otherwise |
| PollLists.StatusNeverRegresses | src/js/components/voter/PollsVotingIn.js:48-56 | given start < close, the status shown never moves backward as the clock advances |
| PollLists.StatusRows | src/js/components/admin/PollsAdminFor.js:43-76 | one row per event, in order, with the event's poll id and description and its derived status |
| PollLists.SpliceAway | src/js/components/admin/PollsAdminFor.js:79-83 | removing a poll keeps the longest prefix without that poll id; the row that matched and every later row are gone |
| PollLists.DropHandedOver | src/js/components/admin/PollsAdminFor.js:78-84 | after all handed-over polls are removed, what survives is the longest prefix holding none of them |
| PollLists.PollsAdminFor | src/js/components/admin/PollsAdminFor.js:86-109 | the admin table is the surviving prefix of created rows, followed by one row per poll received, in order, with status by the same rule |
| PollLists.PollsVotingIn | src/js/components/voter/PollsVotingIn.js:28-65 | one row per approval event, with its poll id and derived status; removals are not subtracted |
| PollLists.ButtonFollowsSchedule | src/js/components/voter/PollsVotingIn.js:69-79 | the button offers to commit exactly in the commit window, to reveal exactly in the reveal window, and otherwise to see the poll |
| MakePollForm.InitialTimes | src/js/components/MakePoll.js:10-16 | the form opens with a ten-minute commit window starting now and an equally long reveal window |
| MakePollForm.OpenedFormIsSubmittable | src/js/components/MakePoll.js:10-29 | the form as it opens, submitted at once with a cost of at least 1, requests a poll starting now with a ten-minute commit window |
| MakePollForm.SaveStartTime | src/js/components/MakePoll.js:55-61 | saving a start proposes a ten-minute commit window and an equally long reveal window |
| MakePollForm.SaveCloseTime | src/js/components/MakePoll.js:69-75 | saving a close keeps start and close and makes the reveal window as long as the commit window |
| MakePollForm.Submit | src/js/components/MakePoll.js:21-41 | a request is sent iff now ≤ start + 7 minutes, start < close and cost ≥ 1, carrying the values unchanged; otherwise the alert for the first failed check, in order |
| MakePollForm.SavedStartIsSubmittable | src/js/components/MakePoll.js:49-61 | a start saved in time with a positive cost is submitted with close = start + 10 minutes |
| Agreement.StatusMatchesLazyPhase | src/js/components/admin/PollsAdminFor.js:49-59 | before the reveal end, the status shown is the phase the ledger's next commit or reveal writes; after it, the table shows "Completed" while the ledger stays in the reveal phase until the poll is completed |
| Agreement.ReachableStatusMatches | src/js/components/admin/PollsAdminFor.js:49-59 | on a ledger deployed and then called in time order, the status a table shows for a poll not yet completed is, before the reveal end, the phase the ledger's next commit or reveal writes |
| Agreement.DisplayedEndIsCompletion | src/js/components/voter/PollsVotingIn.js:35-56 | the reveal end the form displays after saving a close is the instant the tables switch to "Completed" and the ledger allows completion |
| Agreement.FormAgreesWithLedger | src/js/components/MakePoll.js:23-37 | for a running ledger and in-range time stamps: a request the form sends at browser time now is created in a block no later than now; a schedule the ledger accepts in a block no earlier than now passes the form; with equal clocks the two coincide. The ledger's seven-minute grace is a modelling choice, so this shows consistency with that choice |

## Left out

- removeVoter: the test suite never calls it, so there is nothing to pin its behaviour to.
- sweepBalance and kill: they move the contract's whole balance to the owner. Balances are not modelled; payouts are returned as values instead.
- Wei balances and gas: refunds and donations are returned amounts, not transfers between accounts.
- Emitted events: the tables take the events (`PollEvent`) as input. The ledger does not produce an event log.
- The keccak hash: `H` is a parameter of type `HashFn`. `LedgerFacts.OnlyOwnTupleOpens` assumes `H` is injective.
- Clocks: the block time and the browser clock are explicit `now` parameters. Rounding JavaScript milliseconds to seconds is not modelled.
- Ledger.AddCandidate: no phase restriction is modelled. The intended rule is the Created and Commit phases only, but the test suite registers candidates only in the Created phase, so nothing pins the gate's behaviour.
- Ledger.CommitVote: numVotes² × firstVoteCost is computed on unbounded integers, so the 256-bit overflow check on the cost is not modelled.
- Ledger.MakePoll: the description is kept as a whole string, not truncated to 32 bytes. No upper bound on the first vote's cost is modelled.
- Calls.Conservation: bounds the refunds by the deposits only along traces where no commit succeeds in a poll after one of its commitments was redeemed. A withdraw during the commit window followed by further commits can lower the refund rate below the one the withdraw was paid at, and the test suite never asserts a bound in that case. Once a poll is completed, `Calls.CompleteOnce` shows on every trace that the donation plus the refunds equal the deposits.
- The invariant "the candidates' vote counts add up to the revealed, not withdrawn, votes": a commitment records only one `revealed` flag for both a reveal and a withdraw, so the ledger state cannot tell the two apart.
- PollLists.PollsAdminFor: the received rows read the clock once per row (`now2`). The model reads it once for all of them.
- React rendering, routing, alerts, tables, moment.js formatting and the time pickers: these are presentation. The form's times are whole seconds.
- UTF-8 decoding of descriptions (`toUtf8`): descriptions are strings throughout.
- Ledger.AddCandidate: candidate names are kept as whole strings, not truncated to the 32 bytes the ledger stores.
- MakePollForm.Submit: the cost is an integer. The form's number input also admits fractions such as 1.5, which pass the check `cost ≥ 1`.
- Agreement.FormAgreesWithLedger: the ledger's past-start grace is not pinned by the test suite beyond a start at the current block time. The lemma relates the form to the modelled grace only.

=== FILE: agreement.dfy ===
/** How the front end's view of a poll relates to the ledger.

The tables derive a poll's status from the clock, while the ledger only
moves a poll's phase when a commit, reveal or completion arrives. These
lemmas show the two agree: before the reveal phase ends, the status a table shows is the phase
the ledger's next commit or reveal would write; and for a running ledger,
time stamps that fit 32 bits and equal clocks, the form sends exactly the
schedules the ledger accepts.
 */
module Agreement {
  import opened Schedule
  import Ledger
  import PollLists
  import MakePollForm
  import Calls

  /** The status shown for a poll is the phase the ledger's lazy transition
      writes on the next commit or reveal, for a schedule the ledger accepts
      and as long as the stored phase is not ahead of the clock (which
      `ReachableStatusMatches` shows for calls made in time order). Once the reveal
      window is over the table shows "Completed" while the ledger keeps the
      poll in the reveal phase until someone completes it, which is then allowed. */
  lemma StatusMatchesLazyPhase(p: Ledger.Poll, now: nat)
    requires p.startTime < p.closeTime
    requires p.phase != Completed
    requires p.phase.Code() <= ScheduledPhase(now, p.startTime, p.closeTime).Code()
    ensures now < EndReveal(p.startTime, p.closeTime) ==>
              PollLists.DerivedStatus(now, p.startTime, p.closeTime) == PollLists.StatusText(Ledger.Advance(p, now))
    ensures now >= EndReveal(p.startTime, p.closeTime) ==>
              && PollLists.DerivedStatus(now, p.startTime, p.closeTime) == PollLists.CompletedPhaseString
              && Ledger.Advance(p, now) == Reveal
  {
    var ph := ScheduledPhase(now, p.startTime, p.closeTime);
    if now < EndReveal(p.startTime, p.closeTime) {
      assert ph != Completed;
      assert Ledger.Due(p, now) == ph;
      assert Ledger.Advance(p, now) == ph;
    }
  }

  /** For a ledger deployed and then called in time order, the status a table
      shows for any poll not yet completed is the phase the next commit or reveal
      writes, until the reveal window ends. */
  lemma ReachableStatusMatches(owner: Ledger.Addr, txs: seq<Calls.Tx>, hash: Ledger.HashFn, now: nat, pollId: nat)
    requires Calls.InTimeOrder(0, txs, now)
    requires pollId in Calls.Run(Ledger.Deploy(owner), txs, hash).polls
    requires Calls.Run(Ledger.Deploy(owner), txs, hash).polls[pollId].phase != Completed
    ensures var p := Calls.Run(Ledger.Deploy(owner), txs, hash).polls[pollId];
            now < EndReveal(p.startTime, p.closeTime) ==>
              PollLists.DerivedStatus(now, p.startTime, p.closeTime) == PollLists.StatusText(Ledger.Advance(p, now))
  {
    var p := Calls.Run(Ledger.Deploy(owner), txs, hash).polls[pollId];
    Calls.PhaseNeverAheadOfClock(owner, txs, hash, now, pollId);
    StatusMatchesLazyPhase(p, now);
  }

  /** The end of the reveal phase the form displays after saving a close time
      is the instant the tables switch to "Completed" and the ledger allows the
      poll to be completed. */
  lemma DisplayedEndIsCompletion(t: MakePollForm.FormTimes, now: int)
    requires t.start < t.close
    ensures var t' := MakePollForm.SaveCloseTime(t);
            PollLists.DerivedStatus(now, t'.start, t'.close) == PollLists.CompletedPhaseString <==> now >= t'.complete
    ensures MakePollForm.SaveCloseTime(t).complete == EndReveal(t.start, t.close)
  {
  }

  /** The form's checks against the ledger's creation rule, for a running
      ledger and time stamps within range. The form reads the browser clock
      `now`; the ledger reads the time `blockTime` of the block that carries
      the request. A request the form sends is created if the block is not
      later than the form's clock, and a schedule the ledger accepts at a
      block time not earlier than the form's clock passes the form. When the
      two clocks agree, the form requests a poll exactly when it is created. */
  lemma FormAgreesWithLedger(l: Ledger.Ledger, now: nat, blockTime: nat, t: MakePollForm.FormTimes,
                             firstVoteCost: nat, description: string, charityText: string,
                             charity: Ledger.Addr, caller: Ledger.Addr)
    requires !l.stopped
    requires 0 <= t.start && 0 <= t.close && EndReveal(t.start, t.close) <= Ledger.MaxStamp
    ensures blockTime <= now && MakePollForm.Submit(now, t, firstVoteCost, description, charityText).Request? ==>
              Ledger.MakePoll(l, t.start, t.close, firstVoteCost, description, charity, caller, blockTime).Ok?
    ensures now <= blockTime && Ledger.MakePoll(l, t.start, t.close, firstVoteCost, description, charity, caller, blockTime).Ok? ==>
              MakePollForm.Submit(now, t, firstVoteCost, description, charityText).Request?
    ensures blockTime == now ==>
              (MakePollForm.Submit(now, t, firstVoteCost, description, charityText).Request? <==>
               Ledger.MakePoll(l, t.start, t.close, firstVoteCost, description, charity, caller, blockTime).Ok?)
  {
  }
}

=== FILE: calls.dfy ===
/** Sequences of calls against the ledger, and what holds across them.

- Once a commitment is revealed or withdrawn it stays so, and a completed
  poll stays completed: a voter who withdrew can never reveal, and a poll
  cannot be completed twice.
- A poll's stored phase never moves backward, and when calls arrive in time
  order it is never ahead of the phase its schedule has reached.
- A poll in its reveal phase that has refunded more than was deposited can
  never be completed.
- Conservation: while every poll's refunds are computed from the same
  totals, the refunds never exceed the deposits. The totals stay the same
  when no commit succeeds in a poll after the first of its commitments has
  been redeemed. A withdraw during the commit window followed by further
  commits breaks this (the refund rate can fall below the rate the withdraw
  was paid at), so it is a precondition on the trace and not an invariant
  of every trace.
 */
module Calls {
  import opened Schedule
  import opened Ledger

  datatype Call =
    | MakePollCall(startTime: nat, closeTime: nat, firstVoteCost: nat, description: string, charity: Addr)
    | ApproveVoterCall(pollId: nat, voter: Addr)
    | AddCandidateCall(pollId: nat, name: string)
    | TransferAdminCall(pollId: nat, newAdmin: Addr)
    | CommitVoteCall(pollId: nat, hash: Digest, numVotes: nat)
    | RevealVoteCall(pollId: nat, candidateId: nat, salt: Salt)
    | WithdrawCall(pollId: nat, candidateId: nat, salt: Salt)
    | CompletePollCall(pollId: nat)
    | ToggleContractActiveCall

  /** One transaction: a call, who sends it, the payment attached, and the block time. */
  datatype Tx = Tx(call: Call, caller: Addr, value: nat, now: nat)

  /** The ledger after one transaction (unchanged when it reverts). */
  function Step(l: Ledger, tx: Tx, hash: HashFn): Ledger {
    match tx.call
    case MakePollCall(s, c, cost, d, ch) => MakePoll(l, s, c, cost, d, ch, tx.caller, tx.now).After(l)
    case ApproveVoterCall(id, v) => ApproveVoter(l, id, v, tx.caller).After(l)
    case AddCandidateCall(id, name) => AddCandidate(l, id, name, tx.caller).After(l)
    case TransferAdminCall(id, a) => TransferAdmin(l, id, a, tx.caller).After(l)
    case CommitVoteCall(id, h, n) => CommitVote(l, id, h, n, tx.value, tx.caller, tx.now).After(l)
    case RevealVoteCall(id, cand, salt) => RevealVote(l, hash, id, cand, salt, tx.caller, tx.now).After(l)
    case WithdrawCall(id, cand, salt) => Withdraw(l, hash, id, cand, salt, tx.caller).After(l)
    case CompletePollCall(id) => CompletePoll(l, id, tx.now).After(l)
    case ToggleContractActiveCall => ToggleContractActive(l, tx.caller).After(l)
  }

  /** The ledger after a sequence of transactions, applied in order. */
  function Run(l: Ledger, txs: seq<Tx>, hash: HashFn): Ledger
    decreases |txs|
  {
    if txs == [] then l else Run(Step(l, txs[0], hash), txs[1..], hash)
  }

  // ---------------------------------------------------------------------------
  // Redeemed commitments and completed polls are permanent

  lemma StepKeepsRedeemed(l: Ledger, tx: Tx, hash: HashFn, key: (nat, Addr))
    requires key in l.commitments && l.commitments[key].revealed
    ensures key in Step(l, tx, hash).commitments
    ensures Step(l, tx, hash).commitments[key] == l.commitments[key]
  {
    match tx.call
    case CommitVoteCall(id, h, n) =>
      assert !CommitVote(l, id, h, n, tx.value, tx.caller, tx.now).Ok? || (id, tx.caller) != key;
    case RevealVoteCall(id, cand, salt) =>
      assert !RevealVote(l, hash, id, cand, salt, tx.caller, tx.now).Ok? || (id, tx.caller) != key;
    case WithdrawCall(id, cand, salt) =>
      assert !Withdraw(l, hash, id, cand, salt, tx.caller).Ok? || (id, tx.caller) != key;
    case _ =>
  }

  lemma {:induction false} RunKeepsRedeemed(l: Ledger, txs: seq<Tx>, hash: HashFn, key: (nat, Addr))
    requires key in l.commitments && l.commitments[key].revealed
    ensures key in Run(l, txs, hash).commitments
    ensures Run(l, txs, hash).commitments[key] == l.commitments[key]
    decreases |txs|
  {
    if txs != [] {
      StepKeepsRedeemed(l, txs[0], hash, key);
      RunKeepsRedeemed(Step(l, txs[0], hash), txs[1..], hash, key);
    }
  }

  /** A voter who withdrew during an emergency can never reveal afterwards,
      whatever happens in between (including the breaker being reset). */
  lemma NoRevealAfterWithdraw(l: Ledger, hash: HashFn, pollId: nat, candidateId: nat, salt: Salt,
                              voter: Addr, txs: seq<Tx>, candidateId': nat, salt': Salt, now: nat)
    requires Withdraw(l, hash, pollId, candidateId, salt, voter).Ok?
    ensures !RevealVote(Run(Withdraw(l, hash, pollId, candidateId, salt, voter).state, txs, hash),
                        hash, pollId, candidateId', salt', voter, now).Ok?
    ensures !Withdraw(Run(Withdraw(l, hash, pollId, candidateId, salt, voter).state, txs, hash),
                      hash, pollId, candidateId', salt', voter).Ok?
  {
    RunKeepsRedeemed(Withdraw(l, hash, pollId, candidateId, salt, voter).state, txs, hash, (pollId, voter));
  }

  /** Likewise, a voter who revealed is refunded once: no later reveal or
      withdraw of theirs in that poll succeeds. */
  lemma NoSecondReveal(l: Ledger, hash: HashFn, pollId: nat, candidateId: nat, salt: Salt,
                       voter: Addr, now: nat, txs: seq<Tx>, candidateId': nat, salt': Salt, now': nat)
    requires RevealVote(l, hash, pollId, candidateId, salt, voter, now).Ok?
    ensures !RevealVote(Run(RevealVote(l, hash, pollId, candidateId, salt, voter, now).state, txs, hash),
                        hash, pollId, candidateId', salt', voter, now').Ok?
    ensures !Withdraw(Run(RevealVote(l, hash, pollId, candidateId, salt, voter, now).state, txs, hash),
                      hash, pollId, candidateId', salt', voter).Ok?
  {
    RunKeepsRedeemed(RevealVote(l, hash, pollId, candidateId, salt, voter, now).state, txs, hash, (pollId, voter));
  }

  /** Every poll id in use has been issued: a new poll never overwrites one. */
  ghost predicate IdsIssued(l: Ledger) {
    forall id :: id in l.polls ==> 1 <= id <= l.pollCount
  }

  lemma StepKeepsIdsIssued(l: Ledger, tx: Tx, hash: HashFn)
    requires IdsIssued(l)
    ensures IdsIssued(Step(l, tx, hash))
  {
  }

  lemma {:induction false} RunKeepsIdsIssued(l: Ledger, txs: seq<Tx>, hash: HashFn)
    requires IdsIssued(l)
    ensures IdsIssued(Run(l, txs, hash))
    decreases |txs|
  {
    if txs != [] {
      StepKeepsIdsIssued(l, txs[0], hash);
      RunKeepsIdsIssued(Step(l, txs[0], hash), txs[1..], hash);
    }
  }

  /** Every ledger reachable from a deployment meets the premise of the lemmas
      below that follow a poll along a trace. */
  lemma ReachableIdsIssued(owner: Addr, txs: seq<Tx>, hash: HashFn)
    ensures IdsIssued(Run(Deploy(owner), txs, hash))
  {
    RunKeepsIdsIssued(Deploy(owner), txs, hash);
  }

  /** A completed poll stays completed, and its deposit and refund totals are frozen. */
  lemma StepKeepsCompleted(l: Ledger, tx: Tx, hash: HashFn, pollId: nat)
    requires IdsIssued(l)
    requires pollId in l.polls && l.polls[pollId].phase == Completed
    ensures pollId in Step(l, tx, hash).polls
    ensures Step(l, tx, hash).polls[pollId].phase == Completed
    ensures Step(l, tx, hash).polls[pollId].totalWeiPaid == l.polls[pollId].totalWeiPaid
    ensures Step(l, tx, hash).polls[pollId].totalWeiRefunded == l.polls[pollId].totalWeiRefunded
  {
    match tx.call
    case MakePollCall(s, c, cost, d, ch) =>
      assert l.pollCount + 1 != pollId;
    case CommitVoteCall(id, h, n) =>
      if id == pollId {
        assert CommitVote(l, id, h, n, tx.value, tx.caller, tx.now) == Revert;
      }
    case RevealVoteCall(id, cand, salt) =>
      if id == pollId {
        assert RevealVote(l, hash, id, cand, salt, tx.caller, tx.now) == Revert;
      }
    case WithdrawCall(id, cand, salt) =>
      if id == pollId {
        assert Withdraw(l, hash, id, cand, salt, tx.caller) == Revert;
      }
    case _ =>
  }

  lemma {:induction false} RunKeepsCompleted(l: Ledger, txs: seq<Tx>, hash: HashFn, pollId: nat)
    requires IdsIssued(l)
    requires pollId in l.polls && l.polls[pollId].phase == Completed
    ensures pollId in Run(l, txs, hash).polls
    ensures Run(l, txs, hash).polls[pollId].phase == Completed
    ensures Run(l, txs, hash).polls[pollId].totalWeiPaid == l.polls[pollId].totalWeiPaid
    ensures Run(l, txs, hash).polls[pollId].totalWeiRefunded == l.polls[pollId].totalWeiRefunded
    decreases |txs|
  {
    if txs != [] {
      StepKeepsCompleted(l, txs[0], hash, pollId);
      StepKeepsIdsIssued(l, txs[0], hash);
      RunKeepsCompleted(Step(l, txs[0], hash), txs[1..], hash, pollId);
    }
  }

  /** Completing a poll a second time always fails, so the charity is paid
      once; and no refund is paid after completion, so the donation and the
      refunds together stay exactly the deposits. */
  lemma CompleteOnce(l: Ledger, pollId: nat, now: nat, txs: seq<Tx>, hash: HashFn, now': nat)
    requires IdsIssued(l)
    requires CompletePoll(l, pollId, now).Ok?
    ensures CompletePoll(Run(CompletePoll(l, pollId, now).state, txs, hash), pollId, now') == Revert
    ensures var r := CompletePoll(l, pollId, now);
            && pollId in Run(r.state, txs, hash).polls
            && r.value.donated + Run(r.state, txs, hash).polls[pollId].totalWeiRefunded
               == Run(r.state, txs, hash).polls[pollId].totalWeiPaid
  {
    RunKeepsCompleted(CompletePoll(l, pollId, now).state, txs, hash, pollId);
  }

  // ---------------------------------------------------------------------------
  // Phases only move forward

  /** No transaction moves a poll's stored phase backward. */
  lemma StepPhaseMonotone(l: Ledger, tx: Tx, hash: HashFn, pollId: nat)
    requires IdsIssued(l) && pollId in l.polls
    ensures pollId in Step(l, tx, hash).polls
    ensures Step(l, tx, hash).polls[pollId].phase.Code() >= l.polls[pollId].phase.Code()
  {
    match tx.call
    case MakePollCall(s, c, cost, d, ch) =>
      assert l.pollCount + 1 != pollId;
    case _ =>
  }

  /** Along any sequence of transactions a poll's stored phase never regresses. */
  lemma {:induction false} RunPhaseMonotone(l: Ledger, txs: seq<Tx>, hash: HashFn, pollId: nat)
    requires IdsIssued(l) && pollId in l.polls
    ensures pollId in Run(l, txs, hash).polls
    ensures Run(l, txs, hash).polls[pollId].phase.Code() >= l.polls[pollId].phase.Code()
    decreases |txs|
  {
    if txs != [] {
      StepPhaseMonotone(l, txs[0], hash, pollId);
      StepKeepsIdsIssued(l, txs[0], hash);
      RunPhaseMonotone(Step(l, txs[0], hash), txs[1..], hash, pollId);
    }
  }

  // ---------------------------------------------------------------------------
  // An overdrawn poll in its reveal phase can never be completed

  /** The poll is in its reveal phase and has refunded more than was deposited. */
  ghost predicate Overdrawn(l: Ledger, pollId: nat) {
    && pollId in l.polls
    && l.polls[pollId].phase == Reveal
    && l.polls[pollId].totalWeiRefunded > l.polls[pollId].totalWeiPaid
  }

  /** No commit succeeds in the reveal phase, so the deposits are frozen while
      refunds can only grow, and completion keeps reverting. */
  lemma StepKeepsOverdrawn(l: Ledger, tx: Tx, hash: HashFn, pollId: nat)
    requires IdsIssued(l) && Overdrawn(l, pollId)
    ensures Overdrawn(Step(l, tx, hash), pollId)
  {
    match tx.call
    case MakePollCall(s, c, cost, d, ch) =>
      assert l.pollCount + 1 != pollId;
    case CommitVoteCall(id, h, n) =>
      if id == pollId {
        assert Advance(l.polls[pollId], tx.now) == Reveal;
        assert CommitVote(l, id, h, n, tx.value, tx.caller, tx.now) == Revert;
      }
    case CompletePollCall(id) =>
      if id == pollId {
        assert CompletePoll(l, id, tx.now) == Revert;
      }
    case _ =>
  }

  lemma {:induction false} RunKeepsOverdrawn(l: Ledger, txs: seq<Tx>, hash: HashFn, pollId: nat)
    requires IdsIssued(l) && Overdrawn(l, pollId)
    ensures Overdrawn(Run(l, txs, hash), pollId)
    decreases |txs|
  {
    if txs != [] {
      StepKeepsOverdrawn(l, txs[0], hash, pollId);
      StepKeepsIdsIssued(l, txs[0], hash);
      RunKeepsOverdrawn(Step(l, txs[0], hash), txs[1..], hash, pollId);
    }
  }

  /** Once a reveal has pushed a poll's refunds above its deposits, no sequence
      of later transactions lets the poll be completed. */
  lemma OverdrawingRevealIsFinal(l: Ledger, hash: HashFn, pollId: nat, candidateId: nat, salt: Salt,
                                 voter: Addr, now: nat, txs: seq<Tx>, now': nat)
    requires IdsIssued(l)
    requires RevealVote(l, hash, pollId, candidateId, salt, voter, now).Ok?
    requires var l' := RevealVote(l, hash, pollId, candidateId, salt, voter, now).state;
             l'.polls[pollId].totalWeiRefunded > l'.polls[pollId].totalWeiPaid
    ensures !CompletePoll(Run(RevealVote(l, hash, pollId, candidateId, salt, voter, now).state, txs, hash),
                          pollId, now').Ok?
  {
    var l' := RevealVote(l, hash, pollId, candidateId, salt, voter, now).state;
    assert IdsIssued(l');
    RunKeepsOverdrawn(l', txs, hash, pollId);
  }

  // ---------------------------------------------------------------------------
  // The stored phase is never ahead of the clock

  /** Every poll has a well-formed schedule and a stored phase the schedule
      has reached by time `t`. */
  ghost predicate NotAhead(l: Ledger, t: nat) {
    forall id :: id in l.polls ==>
      && l.polls[id].startTime < l.polls[id].closeTime
      && l.polls[id].phase.Code() <= ScheduledPhase(t, l.polls[id].startTime, l.polls[id].closeTime).Code()
  }

  lemma NotAheadLater(l: Ledger, t: nat, t': nat)
    requires NotAhead(l, t) && t <= t'
    ensures NotAhead(l, t')
  {
    forall id | id in l.polls
      ensures l.polls[id].phase.Code() <= ScheduledPhase(t', l.polls[id].startTime, l.polls[id].closeTime).Code()
    {
      ScheduledPhaseMonotone(l.polls[id].startTime, l.polls[id].closeTime, t, t');
    }
  }

  /** The transactions carry block times from `t` on, in order, none later than `now`. */
  ghost predicate InTimeOrder(t: nat, txs: seq<Tx>, now: nat)
    decreases |txs|
  {
    if txs == [] then t <= now else t <= txs[0].now && InTimeOrder(txs[0].now, txs[1..], now)
  }

  /** Every poll keeps its schedule and stored phase, and no poll is added or removed. */
  ghost predicate SamePhases(l: Ledger, l': Ledger) {
    && l'.polls.Keys == l.polls.Keys
    && forall id :: id in l.polls ==>
         && l'.polls[id].startTime == l.polls[id].startTime
         && l'.polls[id].closeTime == l.polls[id].closeTime
         && l'.polls[id].phase == l.polls[id].phase
  }

  lemma FrameNotAhead(l: Ledger, l': Ledger, t: nat)
    requires NotAhead(l, t) && SamePhases(l, l')
    ensures NotAhead(l', t)
  {
    forall id | id in l'.polls
      ensures l'.polls[id].phase.Code() <= ScheduledPhase(t, l'.polls[id].startTime, l'.polls[id].closeTime).Code()
    {
      assert id in l.polls;
    }
  }

  /** Writing a phase the clock has reached keeps every poll behind the clock. */
  lemma WriteNotAhead(l: Ledger, l': Ledger, pollId: nat, ph: Phase, t: nat)
    requires NotAhead(l, t) && pollId in l.polls && pollId in l'.polls
    requires ph.Code() <= ScheduledPhase(t, l.polls[pollId].startTime, l.polls[pollId].closeTime).Code()
    requires l'.polls == l.polls[pollId := l'.polls[pollId]]
    requires l'.polls[pollId].startTime == l.polls[pollId].startTime
    requires l'.polls[pollId].closeTime == l.polls[pollId].closeTime
    requires l'.polls[pollId].phase == ph
    ensures NotAhead(l', t)
  {
  }

  /** The lazy transition never moves a poll past the phase its schedule has reached. */
  lemma AdvanceNotAhead(p: Poll, now: nat)
    requires p.phase.Code() <= ScheduledPhase(now, p.startTime, p.closeTime).Code()
    ensures Advance(p, now).Code() <= ScheduledPhase(now, p.startTime, p.closeTime).Code()
  {
  }

  lemma CommitNotAhead(l: Ledger, pollId: nat, h: Digest, n: nat, value: nat, voter: Addr, now: nat)
    requires NotAhead(l, now)
    ensures NotAhead(CommitVote(l, pollId, h, n, value, voter, now).After(l), now)
  {
    var r := CommitVote(l, pollId, h, n, value, voter, now);
    if !r.Revert? {
      AdvanceNotAhead(l.polls[pollId], now);
      WriteNotAhead(l, r.state, pollId, Advance(l.polls[pollId], now), now);
    }
  }

  lemma RevealNotAhead(l: Ledger, hash: HashFn, pollId: nat, cand: nat, salt: Salt, voter: Addr, now: nat)
    requires NotAhead(l, now)
    ensures NotAhead(RevealVote(l, hash, pollId, cand, salt, voter, now).After(l), now)
  {
    var r := RevealVote(l, hash, pollId, cand, salt, voter, now);
    if !r.Revert? {
      AdvanceNotAhead(l.polls[pollId], now);
      WriteNotAhead(l, r.state, pollId, Advance(l.polls[pollId], now), now);
    }
  }

  lemma CompleteNotAhead(l: Ledger, pollId: nat, now: nat)
    requires NotAhead(l, now)
    ensures NotAhead(CompletePoll(l, pollId, now).After(l), now)
  {
    var r := CompletePoll(l, pollId, now);
    if r.Ok? {
      WriteNotAhead(l, r.state, pollId, Completed, now);
    }
  }

  lemma MakePollNotAhead(l: Ledger, s: nat, c: nat, cost: nat, d: string, ch: Addr, caller: Addr, now: nat)
    requires NotAhead(l, now)
    ensures NotAhead(MakePoll(l, s, c, cost, d, ch, caller, now).After(l), now)
  {
  }

  lemma AddCandidateSamePhases(l: Ledger, pollId: nat, name: string, caller: Addr)
    ensures SamePhases(l, AddCandidate(l, pollId, name, caller).After(l))
  {
  }

  lemma TransferAdminSamePhases(l: Ledger, pollId: nat, newAdmin: Addr, caller: Addr)
    ensures SamePhases(l, TransferAdmin(l, pollId, newAdmin, caller).After(l))
  {
  }

  lemma WithdrawSamePhases(l: Ledger, hash: HashFn, pollId: nat, cand: nat, salt: Salt, voter: Addr)
    ensures SamePhases(l, Withdraw(l, hash, pollId, cand, salt, voter).After(l))
  {
  }

  /** A transaction at a time not before `t` writes no phase the clock has not reached. */
  lemma StepNotAhead(l: Ledger, tx: Tx, hash: HashFn, t: nat)
    requires NotAhead(l, t) && t <= tx.now
    ensures NotAhead(Step(l, tx, hash), tx.now)
  {
    NotAheadLater(l, t, tx.now);
    var l' := Step(l, tx, hash);
    match tx.call
    case MakePollCall(s, c, cost, d, ch) => MakePollNotAhead(l, s, c, cost, d, ch, tx.caller, tx.now);
    case CommitVoteCall(id, h, n) => CommitNotAhead(l, id, h, n, tx.value, tx.caller, tx.now);
    case RevealVoteCall(id, cand, salt) => RevealNotAhead(l, hash, id, cand, salt, tx.caller, tx.now);
    case CompletePollCall(id) => CompleteNotAhead(l, id, tx.now);
    case ApproveVoterCall(id, v) =>
      assert SamePhases(l, ApproveVoter(l, id, v, tx.caller).After(l));
      FrameNotAhead(l, l', tx.now);
    case AddCandidateCall(id, name) =>
      AddCandidateSamePhases(l, id, name, tx.caller);
      FrameNotAhead(l, l', tx.now);
    case TransferAdminCall(id, a) =>
      TransferAdminSamePhases(l, id, a, tx.caller);
      FrameNotAhead(l, l', tx.now);
    case WithdrawCall(id, cand, salt) =>
      WithdrawSamePhases(l, hash, id, cand, salt, tx.caller);
      FrameNotAhead(l, l', tx.now);
    case ToggleContractActiveCall =>
      assert SamePhases(l, ToggleContractActive(l, tx.caller).After(l));
      FrameNotAhead(l, l', tx.now);
  }

  lemma {:induction false} RunNotAhead(l: Ledger, txs: seq<Tx>, hash: HashFn, t: nat, now: nat)
    requires NotAhead(l, t) && InTimeOrder(t, txs, now)
    ensures NotAhead(Run(l, txs, hash), now)
    decreases |txs|
  {
    if txs == [] {
      NotAheadLater(l, t, now);
    } else {
      StepNotAhead(l, txs[0], hash, t);
      RunNotAhead(Step(l, txs[0], hash), txs[1..], hash, txs[0].now, now);
    }
  }

  /** On a ledger deployed and then called in time order, every poll's stored
      phase is one its schedule has reached by any later instant. */
  lemma PhaseNeverAheadOfClock(owner: Addr, txs: seq<Tx>, hash: HashFn, now: nat, pollId: nat)
    requires InTimeOrder(0, txs, now)
    requires pollId in Run(Deploy(owner), txs, hash).polls
    ensures var p := Run(Deploy(owner), txs, hash).polls[pollId];
            && p.startTime < p.closeTime
            && p.phase.Code() <= ScheduledPhase(now, p.startTime, p.closeTime).Code()
  {
    RunNotAhead(Deploy(owner), txs, hash, 0, now);
  }

  // ---------------------------------------------------------------------------
  // Conservation of deposits

  /** What a commitment contributes to a poll's vote sum. */
  ghost function Weight(key: (nat, Addr), c: Commitment, pollId: nat, redeemedOnly: bool): nat {
    if key.0 == pollId && (c.revealed || !redeemedOnly) then c.numVotes else 0
  }

  /** The votes committed to `pollId` (all of them, or only the redeemed ones). */
  ghost function VotesIn(cs: map<(nat, Addr), Commitment>, pollId: nat, redeemedOnly: bool): nat
    decreases |cs|
  {
    if cs == map[] then 0
    else
      var key :| key in cs;
      assert (cs - {key}).Keys == cs.Keys - {key};
      Weight(key, cs[key], pollId, redeemedOnly) + VotesIn(cs - {key}, pollId, redeemedOnly)
  }

  /** The sum does not depend on which key is taken first. */
  lemma {:induction false} VotesSplit(cs: map<(nat, Addr), Commitment>, key: (nat, Addr), pollId: nat, redeemedOnly: bool)
    requires key in cs
    ensures VotesIn(cs, pollId, redeemedOnly) == Weight(key, cs[key], pollId, redeemedOnly) + VotesIn(cs - {key}, pollId, redeemedOnly)
    decreases |cs|
  {
    var j :| j in cs && VotesIn(cs, pollId, redeemedOnly) == Weight(j, cs[j], pollId, redeemedOnly) + VotesIn(cs - {j}, pollId, redeemedOnly);
    if j != key {
      assert (cs - {j}).Keys == cs.Keys - {j};
      assert (cs - {key}).Keys == cs.Keys - {key};
      VotesSplit(cs - {j}, key, pollId, redeemedOnly);
      VotesSplit(cs - {key}, j, pollId, redeemedOnly);
      assert cs - {j} - {key} == cs - {key} - {j};
    }
  }

  lemma VotesInsert(cs: map<(nat, Addr), Commitment>, key: (nat, Addr), c: Commitment, pollId: nat, redeemedOnly: bool)
    requires key !in cs
    ensures VotesIn(cs[key := c], pollId, redeemedOnly) == VotesIn(cs, pollId, redeemedOnly) + Weight(key, c, pollId, redeemedOnly)
  {
    VotesSplit(cs[key := c], key, pollId, redeemedOnly);
    assert cs[key := c] - {key} == cs;
  }

  lemma VotesUpdate(cs: map<(nat, Addr), Commitment>, key: (nat, Addr), c: Commitment, pollId: nat, redeemedOnly: bool)
    requires key in cs
    ensures VotesIn(cs[key := c], pollId, redeemedOnly) + Weight(key, cs[key], pollId, redeemedOnly)
         == VotesIn(cs, pollId, redeemedOnly) + Weight(key, c, pollId, redeemedOnly)
  {
    VotesSplit(cs[key := c], key, pollId, redeemedOnly);
    VotesSplit(cs, key, pollId, redeemedOnly);
    assert cs[key := c] - {key} == cs - {key};
  }

  /** A poll without commitments has no votes. */
  lemma {:induction false} VotesAbsent(cs: map<(nat, Addr), Commitment>, pollId: nat, redeemedOnly: bool)
    requires forall key :: key in cs ==> key.0 != pollId
    ensures VotesIn(cs, pollId, redeemedOnly) == 0
    decreases |cs|
  {
    if cs != map[] {
      var key :| key in cs;
      VotesSplit(cs, key, pollId, redeemedOnly);
      assert (cs - {key}).Keys == cs.Keys - {key};
      VotesAbsent(cs - {key}, pollId, redeemedOnly);
    }
  }

  /** No redeemed commitment, no redeemed votes. */
  lemma {:induction false} VotesNoneRedeemed(cs: map<(nat, Addr), Commitment>, pollId: nat)
    requires forall key :: key in cs && key.0 == pollId ==> !cs[key].revealed
    ensures VotesIn(cs, pollId, true) == 0
    decreases |cs|
  {
    if cs != map[] {
      var key :| key in cs;
      VotesSplit(cs, key, pollId, true);
      assert (cs - {key}).Keys == cs.Keys - {key};
      VotesNoneRedeemed(cs - {key}, pollId);
    }
  }

  /** Redeemed votes are some of the committed votes. */
  lemma {:induction false} RedeemedAtMostCommitted(cs: map<(nat, Addr), Commitment>, pollId: nat)
    ensures VotesIn(cs, pollId, true) <= VotesIn(cs, pollId, false)
    decreases |cs|
  {
    if cs != map[] {
      var key :| key in cs;
      VotesSplit(cs, key, pollId, true);
      VotesSplit(cs, key, pollId, false);
      assert (cs - {key}).Keys == cs.Keys - {key};
      RedeemedAtMostCommitted(cs - {key}, pollId);
    }
  }

  lemma MulMonotone(q: nat, a: nat, b: nat)
    requires a <= b
    ensures q * a <= q * b
  {
  }

  lemma DivTimesDivisor(p: nat, v: nat)
    requires v > 0
    ensures (p / v) * v <= p
  {
  }

  lemma MulDistributes(q: nat, a: nat, b: nat)
    ensures q * a + q * b == q * (a + b)
  {
  }

  /** The refund rate of a poll (0 before anything is committed). */
  function Rate(p: Poll): nat {
    if p.totalVotesCommitted == 0 then 0 else RefundPerVote(p)
  }

  /** The poll's counters agree with its commitments: the committed votes are
      the sum over its commitments, and every redeemed vote was refunded at
      the poll's current rate. */
  ghost predicate Balanced(l: Ledger, pollId: nat)
    requires pollId in l.polls
  {
    var p := l.polls[pollId];
    && VotesIn(l.commitments, pollId, false) == p.totalVotesCommitted
    && p.totalWeiRefunded == Rate(p) * VotesIn(l.commitments, pollId, true)
  }

  ghost predicate Inv(l: Ledger) {
    && (forall key :: key in l.commitments ==> key.0 in l.polls)
    && IdsIssued(l)
    && (forall id :: id in l.polls ==> Balanced(l, id))
  }

  /** No commitment of the poll has been revealed or withdrawn yet. */
  ghost predicate NothingRedeemed(l: Ledger, pollId: nat) {
    forall key :: key in l.commitments && key.0 == pollId ==> !l.commitments[key].revealed
  }

  /** A transaction respects the frozen totals: if it is a successful commit,
      nothing in that poll has been redeemed yet. */
  ghost predicate Admissible(l: Ledger, tx: Tx) {
    (tx.call.CommitVoteCall? &&
     CommitVote(l, tx.call.pollId, tx.call.hash, tx.call.numVotes, tx.value, tx.caller, tx.now).Ok?)
    ==> NothingRedeemed(l, tx.call.pollId)
  }

  /** Every transaction of the trace is admissible in the state it meets. */
  ghost predicate CommitsBeforeRefunds(l: Ledger, txs: seq<Tx>, hash: HashFn)
    decreases |txs|
  {
    txs == [] || (Admissible(l, txs[0]) && CommitsBeforeRefunds(Step(l, txs[0], hash), txs[1..], hash))
  }

  lemma DeployInv(owner: Addr)
    ensures Inv(Deploy(owner))
  {
  }

  /** The invariant bounds what has been refunded by what has been paid. */
  lemma RefundsBounded(l: Ledger, pollId: nat)
    requires Inv(l) && pollId in l.polls
    ensures l.polls[pollId].totalWeiRefunded <= l.polls[pollId].totalWeiPaid
  {
    var p := l.polls[pollId];
    assert Balanced(l, pollId);
    RedeemedAtMostCommitted(l.commitments, pollId);
    if p.totalVotesCommitted > 0 {
      MulMonotone(RefundPerVote(p), VotesIn(l.commitments, pollId, true), p.totalVotesCommitted);
      DivTimesDivisor(p.totalWeiPaid, p.totalVotesCommitted);
    }
  }

  /** A poll whose commitments and counters did not change stays balanced. */
  lemma BalancedFrame(l: Ledger, l': Ledger, pollId: nat)
    requires pollId in l.polls && pollId in l'.polls && Balanced(l, pollId)
    requires l'.commitments == l.commitments
    requires l'.polls[pollId].totalWeiPaid == l.polls[pollId].totalWeiPaid
    requires l'.polls[pollId].totalWeiRefunded == l.polls[pollId].totalWeiRefunded
    requires l'.polls[pollId].totalVotesCommitted == l.polls[pollId].totalVotesCommitted
    ensures Balanced(l', pollId)
  {
  }

  /** Calls that leave commitments and money counters alone keep the invariant. */
  lemma CountersUnchanged(l: Ledger, l': Ledger)
    requires Inv(l)
    requires l'.commitments == l.commitments && l'.pollCount == l.pollCount
    requires l'.polls.Keys == l.polls.Keys
    requires forall id :: id in l.polls ==>
      && l'.polls[id].totalWeiPaid == l.polls[id].totalWeiPaid
      && l'.polls[id].totalWeiRefunded == l.polls[id].totalWeiRefunded
      && l'.polls[id].totalVotesCommitted == l.polls[id].totalVotesCommitted
    ensures Inv(l')
  {
    forall id | id in l'.polls
      ensures Balanced(l', id)
    {
      BalancedFrame(l, l', id);
    }
  }

  lemma MakePollInv(l: Ledger, startTime: nat, closeTime: nat, firstVoteCost: nat,
                    description: string, charity: Addr, caller: Addr, now: nat)
    requires Inv(l)
    ensures Inv(MakePoll(l, startTime, closeTime, firstVoteCost, description, charity, caller, now).After(l))
  {
    var r := MakePoll(l, startTime, closeTime, firstVoteCost, description, charity, caller, now);
    if r.Ok? {
      var l' := r.state;
      var id := r.value;
      assert id !in l.polls;
      VotesAbsent(l.commitments, id, false);
      VotesAbsent(l.commitments, id, true);
      forall pid | pid in l'.polls
        ensures Balanced(l', pid)
      {
        if pid != id {
          BalancedFrame(l, l', pid);
        }
      }
    }
  }

  lemma CommitInv(l: Ledger, pollId: nat, hash: Digest, numVotes: nat, value: nat, voter: Addr, now: nat)
    requires Inv(l)
    requires CommitVote(l, pollId, hash, numVotes, value, voter, now).Ok? ==> NothingRedeemed(l, pollId)
    ensures Inv(CommitVote(l, pollId, hash, numVotes, value, voter, now).After(l))
  {
    var r := CommitVote(l, pollId, hash, numVotes, value, voter, now);
    if r.NoOp? {
      CountersUnchanged(l, r.state);
    } else if r.Ok? {
      var l' := r.state;
      var key := (pollId, voter);
      var c := Commitment(hash, numVotes, false);
      forall pid | pid in l'.polls
        ensures Balanced(l', pid)
      {
        VotesInsert(l.commitments, key, c, pid, false);
        VotesInsert(l.commitments, key, c, pid, true);
        if pid == pollId {
          VotesNoneRedeemed(l.commitments, pollId);
          VotesNoneRedeemed(l'.commitments, pollId);
        }
      }
    }
  }

  /** Redeeming one commitment moves its votes into the redeemed sum and its refund into the counter. */
  lemma RedeemBalanced(l: Ledger, l': Ledger, pollId: nat, voter: Addr, refund: nat)
    requires Inv(l) && pollId in l.polls && (pollId, voter) in l.commitments
    requires !l.commitments[(pollId, voter)].revealed
    requires l.polls[pollId].totalVotesCommitted > 0
    requires refund == RefundPerVote(l.polls[pollId]) * l.commitments[(pollId, voter)].numVotes
    requires l'.commitments == l.commitments[(pollId, voter) := l.commitments[(pollId, voter)].(revealed := true)]
    requires l'.polls.Keys == l.polls.Keys && l'.pollCount == l.pollCount
    requires l'.polls[pollId].totalWeiPaid == l.polls[pollId].totalWeiPaid
    requires l'.polls[pollId].totalVotesCommitted == l.polls[pollId].totalVotesCommitted
    requires l'.polls[pollId].totalWeiRefunded == l.polls[pollId].totalWeiRefunded + refund
    requires forall id :: id in l.polls && id != pollId ==> l'.polls[id] == l.polls[id]
    ensures Inv(l')
  {
    var key := (pollId, voter);
    var c := l.commitments[key];
    forall pid | pid in l'.polls
      ensures Balanced(l', pid)
    {
      VotesUpdate(l.commitments, key, c.(revealed := true), pid, false);
      VotesUpdate(l.commitments, key, c.(revealed := true), pid, true);
      assert Balanced(l, pid);
      if pid == pollId {
        var q := RefundPerVote(l.polls[pollId]);
        var r := VotesIn(l.commitments, pollId, true);
        assert VotesIn(l'.commitments, pollId, true) == r + c.numVotes;
        MulDistributes(q, r, c.numVotes);
      }
    }
  }

  lemma RevealInv(l: Ledger, hash: HashFn, pollId: nat, candidateId: nat, salt: Salt, voter: Addr, now: nat)
    requires Inv(l)
    ensures Inv(RevealVote(l, hash, pollId, candidateId, salt, voter, now).After(l))
  {
    var r := RevealVote(l, hash, pollId, candidateId, salt, voter, now);
    if r.NoOp? {
      CountersUnchanged(l, r.state);
    } else if r.Ok? {
      RedeemBalanced(l, r.state, pollId, voter, r.value);
    }
  }

  lemma WithdrawInv(l: Ledger, hash: HashFn, pollId: nat, candidateId: nat, salt: Salt, voter: Addr)
    requires Inv(l)
    ensures Inv(Withdraw(l, hash, pollId, candidateId, salt, voter).After(l))
  {
    var r := Withdraw(l, hash, pollId, candidateId, salt, voter);
    if r.Ok? {
      RedeemBalanced(l, r.state, pollId, voter, r.value);
    }
  }

  lemma AdminInv(l: Ledger, tx: Tx, hash: HashFn)
    requires Inv(l)
    requires tx.call.ApproveVoterCall? || tx.call.AddCandidateCall? || tx.call.TransferAdminCall?
    ensures Inv(Step(l, tx, hash))
  {
    CountersUnchanged(l, Step(l, tx, hash));
  }

  lemma CompleteInv(l: Ledger, pollId: nat, now: nat)
    requires Inv(l)
    ensures Inv(CompletePoll(l, pollId, now).After(l))
  {
    CountersUnchanged(l, CompletePoll(l, pollId, now).After(l));
  }

  /** Every admissible transaction keeps the invariant. */
  lemma StepInv(l: Ledger, tx: Tx, hash: HashFn)
    requires Inv(l) && Admissible(l, tx)
    ensures Inv(Step(l, tx, hash))
  {
    match tx.call
    case MakePollCall(s, c, cost, d, ch) => MakePollInv(l, s, c, cost, d, ch, tx.caller, tx.now);
    case ApproveVoterCall(id, v) => AdminInv(l, tx, hash);
    case AddCandidateCall(id, name) => AdminInv(l, tx, hash);
    case TransferAdminCall(id, a) => AdminInv(l, tx, hash);
    case CommitVoteCall(id, h, n) => CommitInv(l, id, h, n, tx.value, tx.caller, tx.now);
    case RevealVoteCall(id, cand, salt) => RevealInv(l, hash, id, cand, salt, tx.caller, tx.now);
    case WithdrawCall(id, cand, salt) => WithdrawInv(l, hash, id, cand, salt, tx.caller);
    case CompletePollCall(id) => CompleteInv(l, id, tx.now);
    case ToggleContractActiveCall => CountersUnchanged(l, Step(l, tx, hash));
  }

  lemma {:induction false} RunInv(l: Ledger, txs: seq<Tx>, hash: HashFn)
    requires Inv(l) && CommitsBeforeRefunds(l, txs, hash)
    ensures Inv(Run(l, txs, hash))
    decreases |txs|
  {
    if txs != [] {
      StepInv(l, txs[0], hash);
      RunInv(Step(l, txs[0], hash), txs[1..], hash);
    }
  }

  /** Conservation: from deployment, along any trace in which no commit succeeds
      after a refund in its poll, no poll ever refunds more than it was paid,
      so completing it never fails for lack of funds and donates the rest. */
  lemma Conservation(owner: Addr, txs: seq<Tx>, hash: HashFn, pollId: nat, now: nat)
    requires CommitsBeforeRefunds(Deploy(owner), txs, hash)
    requires pollId in Run(Deploy(owner), txs, hash).polls
    ensures var p := Run(Deploy(owner), txs, hash).polls[pollId];
            p.totalWeiRefunded <= p.totalWeiPaid
    ensures var l := Run(Deploy(owner), txs, hash);
            var p := l.polls[pollId];
            p.phase != Completed && now >= EndReveal(p.startTime, p.closeTime) ==>
              CompletePoll(l, pollId, now).Ok? &&
              CompletePoll(l, pollId, now).value.donated + p.totalWeiRefunded == p.totalWeiPaid
  {
    DeployInv(owner);
    RunInv(Deploy(owner), txs, hash);
    RefundsBounded(Run(Deploy(owner), txs, hash), pollId);
  }
}

=== FILE: ledger.dfy ===
/** The commit-reveal quadratic-voting ledger.

Each operation is a pure function of the current ledger, the caller, the
attached payment and the current time `now`, and returns one of three
outcomes:
- `Revert`: the call fails and the ledger is left exactly as it was;
- `NoOp(state)`: the call crossed a phase boundary, so the new phase is
  written, but the call does not apply in that phase; only the phase changed;
- `Ok(state, value)`: the call took effect; `value` is what it returns or
  pays out (a new poll id, a refund, the completion record).

The commitment hash `H(pollId, numVotes, candidateId, salt)` is a parameter
of the operations that check it.
 */
module Ledger {
  import opened Schedule
  import Tally

  type Addr = nat
  type Salt = nat
  type Digest = nat

  /** The commitment hash H(pollId, numVotes, candidateId, salt). */
  type HashFn = (nat, nat, nat, Salt) -> Digest

  /** Candidate ids are 8-bit: at most 255 candidates per poll. */
  const MaxCandidates: nat := 255

  /** Phase boundaries, including the end of the reveal window, are 32-bit. */
  const MaxStamp: nat := 0xFFFF_FFFF

  /** A poll may be created with a start up to seven minutes in the past. */
  const CreationGrace: nat := 7 * 60

  /** A poll, with its fields in the order the ledger reports them (0 to 10). */
  datatype Poll = Poll(
    totalWeiPaid: nat,
    totalWeiRefunded: nat,
    startTime: nat,
    closeTime: nat,
    firstVoteCost: nat,
    totalVotesCommitted: nat,
    candidateCount: nat,
    description: string,
    admin: Addr,
    charity: Addr,
    phase: Phase)

  datatype Candidate = Candidate(voteCount: nat, name: string)

  /** A voter's commitment in one poll; `revealed` is set by reveal and by withdraw. */
  datatype Commitment = Commitment(hash: Digest, numVotes: nat, revealed: bool)

  /** The whole ledger: polls by id, candidates by (pollId, candidateId),
      commitments by (pollId, voter), and the approved (pollId, voter) pairs. */
  datatype Ledger = Ledger(
    owner: Addr,
    stopped: bool,
    pollCount: nat,
    polls: map<nat, Poll>,
    candidates: map<(nat, nat), Candidate>,
    commitments: map<(nat, Addr), Commitment>,
    voters: set<(nat, Addr)>)

  /** What completing a poll reports: the winner (0 for a tie) and the amount sent to the charity. */
  datatype Completion = Completion(winner: nat, donated: nat)

  datatype Outcome<T> = Revert | NoOp(state: Ledger) | Ok(state: Ledger, value: T) {
    /** The ledger after the call. */
    function After(before: Ledger): Ledger {
      if Revert? then before else state
    }
  }

  /** A freshly deployed ledger: no polls, breaker not tripped. */
  function Deploy(owner: Addr): (l: Ledger)
    ensures l.owner == owner && !l.stopped && l.pollCount == 0 && l.polls == map[]
  {
    Ledger(owner, false, 0, map[], map[], map[], {})
  }

  /** The deposit for `numVotes` votes: the square of the vote count times the price of one vote. */
  function QuadraticCost(numVotes: nat, firstVoteCost: nat): nat {
    numVotes * numVotes * firstVoteCost
  }

  /** The refund per committed vote: total paid divided by total votes, rounded down. */
  function RefundPerVote(p: Poll): nat
    requires p.totalVotesCommitted > 0
  {
    p.totalWeiPaid / p.totalVotesCommitted
  }

  // ---------------------------------------------------------------------------
  // The lazy phase transition

  /** The later of two phases. */
  function Later(a: Phase, b: Phase): Phase {
    if b.Code() > a.Code() then b else a
  }

  /** The phase the clock can move a poll into: time alone never completes a poll. */
  function Due(p: Poll, now: nat): Phase {
    var ph := ScheduledPhase(now, p.startTime, p.closeTime);
    if ph == Completed then Reveal else ph
  }

  /** The phase a call writes before anything else: the stored phase moved
      forward to where the schedule says the poll is. */
  function Advance(p: Poll, now: nat): (ph: Phase)
    ensures ph.Code() >= p.phase.Code()
    ensures ph == Completed <==> p.phase == Completed
    ensures p.phase != Completed ==> ph.Code() >= Due(p, now).Code()
    ensures ph == p.phase || ph == Due(p, now)
  {
    if p.phase == Completed then Completed else Later(p.phase, Due(p, now))
  }

  /** How the phase check of an operation that needs phase `wanted` ends. */
  datatype Gate =
    | Open       // the (possibly just advanced) phase is the wanted one
    | Skip       // a boundary was crossed into another phase: write it and stop without reverting
    | Closed     // no boundary was crossed and the phase is wrong: revert

  function PhaseGate(p: Poll, now: nat, wanted: Phase): (g: Gate)
    ensures g == Open <==> Advance(p, now) == wanted
    ensures g == Skip <==> Advance(p, now) != wanted && Advance(p, now) != p.phase
    ensures g == Closed <==> Advance(p, now) != wanted && Advance(p, now) == p.phase
  {
    var ph := Advance(p, now);
    if ph == wanted then Open else if ph != p.phase then Skip else Closed
  }

  /** `l'` is `l` with only the phase of poll `pollId` set to `ph`. */
  ghost predicate OnlyPhaseWritten(l: Ledger, l': Ledger, pollId: nat, ph: Phase)
    requires pollId in l.polls
  {
    l' == l.(polls := l.polls[pollId := l.polls[pollId].(phase := ph)])
  }

  /** Writes the advanced phase of a poll. */
  function WritePhase(l: Ledger, pollId: nat, ph: Phase): (l': Ledger)
    requires pollId in l.polls
    ensures OnlyPhaseWritten(l, l', pollId, ph)
  {
    l.(polls := l.polls[pollId := l.polls[pollId].(phase := ph)])
  }

  // ---------------------------------------------------------------------------
  // Owner and poll administration

  /** The owner flips the circuit breaker; anyone else reverts. */
  function ToggleContractActive(l: Ledger, caller: Addr): (r: Outcome<()>)
    ensures r.Ok? <==> caller == l.owner
    ensures !r.NoOp?
    ensures r.Ok? ==> r.state == l.(stopped := !l.stopped)
  {
    if caller != l.owner then Revert else Ok(l.(stopped := !l.stopped), ())
  }

  /** The schedule of a new poll is acceptable at `now`: the start is not more
      than the grace period in the past, the reveal phase starts after the
      commit phase, and every boundary fits the 32-bit time stamp. */
  predicate ScheduleAccepted(startTime: nat, closeTime: nat, now: nat) {
    && now <= startTime + CreationGrace
    && startTime < closeTime
    && EndReveal(startTime, closeTime) <= MaxStamp
  }

  /** Creates a poll with the next sequential id; the caller becomes its admin. */
  function MakePoll(l: Ledger, startTime: nat, closeTime: nat, firstVoteCost: nat,
                    description: string, charity: Addr, caller: Addr, now: nat): (r: Outcome<nat>)
    ensures !r.NoOp?
    ensures r.Ok? <==> !l.stopped && ScheduleAccepted(startTime, closeTime, now) && firstVoteCost >= 1
    ensures r.Ok? ==>
      && r.value == l.pollCount + 1
      && r.state.pollCount == l.pollCount + 1
      && r.state.polls == l.polls[r.value := Poll(0, 0, startTime, closeTime, firstVoteCost, 0, 0,
                                                   description, caller, charity, Created)]
      && r.state.(pollCount := l.pollCount, polls := l.polls) == l
  {
    if l.stopped then Revert
    else if !ScheduleAccepted(startTime, closeTime, now) then Revert
    else if firstVoteCost < 1 then Revert
    else
      var id := l.pollCount + 1;
      var p := Poll(0, 0, startTime, closeTime, firstVoteCost, 0, 0, description, caller, charity, Created);
      Ok(l.(pollCount := id, polls := l.polls[id := p]), id)
  }

  /** The poll's admin approves `voter` to vote in it. */
  function ApproveVoter(l: Ledger, pollId: nat, voter: Addr, caller: Addr): (r: Outcome<()>)
    ensures !r.NoOp?
    ensures r.Ok? <==> pollId in l.polls && caller == l.polls[pollId].admin
    ensures r.Ok? ==> r.state == l.(voters := l.voters + {(pollId, voter)})
  {
    if pollId !in l.polls || caller != l.polls[pollId].admin then Revert
    else Ok(l.(voters := l.voters + {(pollId, voter)}), ())
  }

  /** The poll's admin registers a candidate; it gets the next id and no votes. */
  function AddCandidate(l: Ledger, pollId: nat, name: string, caller: Addr): (r: Outcome<nat>)
    ensures !r.NoOp?
    ensures r.Ok? <==>
      pollId in l.polls && caller == l.polls[pollId].admin && l.polls[pollId].candidateCount < MaxCandidates
    ensures r.Ok? ==>
      var p := l.polls[pollId];
      && r.value == p.candidateCount + 1
      && r.state.candidates == l.candidates[(pollId, r.value) := Candidate(0, name)]
      && r.state.polls == l.polls[pollId := p.(candidateCount := r.value)]
      && r.state.(candidates := l.candidates, polls := l.polls) == l
  {
    if pollId !in l.polls || caller != l.polls[pollId].admin then Revert
    else
      var p := l.polls[pollId];
      if p.candidateCount >= MaxCandidates then Revert
      else
        var id := p.candidateCount + 1;
        Ok(l.(polls := l.polls[pollId := p.(candidateCount := id)],
              candidates := l.candidates[(pollId, id) := Candidate(0, name)]), id)
  }

  /** The poll's admin hands the poll to `newAdmin`. */
  function TransferAdmin(l: Ledger, pollId: nat, newAdmin: Addr, caller: Addr): (r: Outcome<()>)
    ensures !r.NoOp?
    ensures r.Ok? <==> pollId in l.polls && caller == l.polls[pollId].admin
    ensures r.Ok? ==> r.state == l.(polls := l.polls[pollId := l.polls[pollId].(admin := newAdmin)])
  {
    if pollId !in l.polls || caller != l.polls[pollId].admin then Revert
    else Ok(l.(polls := l.polls[pollId := l.polls[pollId].(admin := newAdmin)]), ())
  }

  // ---------------------------------------------------------------------------
  // Voting

  /** An approved voter commits a hidden vote, paying exactly the quadratic cost. */
  function CommitVote(l: Ledger, pollId: nat, hash: Digest, numVotes: nat, value: nat,
                      voter: Addr, now: nat): (r: Outcome<()>)
    ensures r.Ok? <==>
      && !l.stopped && pollId in l.polls
      && Advance(l.polls[pollId], now) == Commit
      && (pollId, voter) in l.voters
      && (pollId, voter) !in l.commitments
      && numVotes >= 1
      && value == QuadraticCost(numVotes, l.polls[pollId].firstVoteCost)
    ensures r.NoOp? <==>
      && !l.stopped && pollId in l.polls
      && Advance(l.polls[pollId], now) != Commit
      && Advance(l.polls[pollId], now) != l.polls[pollId].phase
    ensures r.NoOp? ==> OnlyPhaseWritten(l, r.state, pollId, Advance(l.polls[pollId], now))
    ensures r.Ok? ==>
      var p := l.polls[pollId];
      && r.state.commitments == l.commitments[(pollId, voter) := Commitment(hash, numVotes, false)]
      && r.state.polls == l.polls[pollId := p.(totalWeiPaid := p.totalWeiPaid + value,
                                               totalVotesCommitted := p.totalVotesCommitted + numVotes,
                                               phase := Commit)]
      && r.state.(commitments := l.commitments, polls := l.polls) == l
  {
    if l.stopped || pollId !in l.polls then Revert
    else
      var p := l.polls[pollId];
      match PhaseGate(p, now, Commit)
      case Closed => Revert
      case Skip => NoOp(WritePhase(l, pollId, Advance(p, now)))
      case Open =>
        if (pollId, voter) !in l.voters then Revert
        else if (pollId, voter) in l.commitments then Revert
        else if numVotes < 1 then Revert
        else if value != QuadraticCost(numVotes, p.firstVoteCost) then Revert
        else
          var p' := p.(totalWeiPaid := p.totalWeiPaid + value,
                       totalVotesCommitted := p.totalVotesCommitted + numVotes,
                       phase := Commit);
          Ok(l.(polls := l.polls[pollId := p'],
                commitments := l.commitments[(pollId, voter) := Commitment(hash, numVotes, false)]), ())
  }

  /** The stored commitment of `voter` is unrevealed and reproduced by `(candidateId, salt)`,
      and the refund can be computed. Shared by reveal and withdraw. */
  predicate Redeemable(l: Ledger, hash: HashFn, pollId: nat, candidateId: nat, salt: Salt, voter: Addr) {
    && pollId in l.polls
    && (pollId, voter) in l.commitments
    && !l.commitments[(pollId, voter)].revealed
    && hash(pollId, l.commitments[(pollId, voter)].numVotes, candidateId, salt) == l.commitments[(pollId, voter)].hash
    && l.polls[pollId].totalVotesCommitted > 0
  }

  /** Marks the commitment redeemed and books its refund against the poll. */
  function Redeem(l: Ledger, pollId: nat, voter: Addr): (r: (Ledger, nat))
    requires pollId in l.polls && (pollId, voter) in l.commitments
    requires l.polls[pollId].totalVotesCommitted > 0
    ensures var p := l.polls[pollId];
            var c := l.commitments[(pollId, voter)];
            && r.1 == RefundPerVote(p) * c.numVotes
            && r.0.commitments == l.commitments[(pollId, voter) := c.(revealed := true)]
            && r.0.polls == l.polls[pollId := p.(totalWeiRefunded := p.totalWeiRefunded + r.1)]
            && r.0.(commitments := l.commitments, polls := l.polls) == l
  {
    var p := l.polls[pollId];
    var c := l.commitments[(pollId, voter)];
    var refund := (p.totalWeiPaid / p.totalVotesCommitted) * c.numVotes;
    (l.(polls := l.polls[pollId := p.(totalWeiRefunded := p.totalWeiRefunded + refund)],
        commitments := l.commitments[(pollId, voter) := c.(revealed := true)]), refund)
  }

  /** A voter opens their commitment during the reveal window: the votes go to
      the chosen candidate and the voter is refunded at the current rate. */
  function RevealVote(l: Ledger, hash: HashFn, pollId: nat, candidateId: nat, salt: Salt,
                      voter: Addr, now: nat): (r: Outcome<nat>)
    ensures r.Ok? <==>
      && !l.stopped && pollId in l.polls
      && Advance(l.polls[pollId], now) == Reveal
      && now < EndReveal(l.polls[pollId].startTime, l.polls[pollId].closeTime)
      && Redeemable(l, hash, pollId, candidateId, salt, voter)
      && (pollId, candidateId) in l.candidates
    ensures r.NoOp? <==>
      && !l.stopped && pollId in l.polls
      && Advance(l.polls[pollId], now) != Reveal
      && Advance(l.polls[pollId], now) != l.polls[pollId].phase
    ensures r.NoOp? ==> OnlyPhaseWritten(l, r.state, pollId, Advance(l.polls[pollId], now))
    ensures r.Ok? ==>
      var p := l.polls[pollId];
      var c := l.commitments[(pollId, voter)];
      var cand := l.candidates[(pollId, candidateId)];
      && r.value == RefundPerVote(p) * c.numVotes
      && r.state.commitments == l.commitments[(pollId, voter) := c.(revealed := true)]
      && r.state.candidates == l.candidates[(pollId, candidateId) := cand.(voteCount := cand.voteCount + c.numVotes)]
      && r.state.polls == l.polls[pollId := p.(totalWeiRefunded := p.totalWeiRefunded + r.value, phase := Reveal)]
      && r.state.(commitments := l.commitments, candidates := l.candidates, polls := l.polls) == l
  {
    if l.stopped || pollId !in l.polls then Revert
    else
      var p := l.polls[pollId];
      match PhaseGate(p, now, Reveal)
      case Closed => Revert
      case Skip => NoOp(WritePhase(l, pollId, Advance(p, now)))
      case Open =>
        if now >= EndReveal(p.startTime, p.closeTime) then Revert
        else if !Redeemable(l, hash, pollId, candidateId, salt, voter) then Revert
        else if (pollId, candidateId) !in l.candidates then Revert
        else
          var (l1, refund) := Redeem(WritePhase(l, pollId, Reveal), pollId, voter);
          var cand := l.candidates[(pollId, candidateId)];
          var c := l.commitments[(pollId, voter)];
          Ok(l1.(candidates := l.candidates[(pollId, candidateId) := cand.(voteCount := cand.voteCount + c.numVotes)]),
             refund)
  }

  /** While the breaker is tripped, a voter can take a refund without casting
      votes. It passes the same check as a reveal and is paid at the reveal rate,
      floor(totalWeiPaid / totalVotesCommitted) times their votes. That is less
      than their deposit whenever they bought more votes than the average.
      Nothing is withdrawn from a completed poll: its deposits have been paid out. */
  function Withdraw(l: Ledger, hash: HashFn, pollId: nat, candidateId: nat, salt: Salt,
                    voter: Addr): (r: Outcome<nat>)
    ensures !r.NoOp?
    ensures r.Ok? <==>
      && l.stopped && Redeemable(l, hash, pollId, candidateId, salt, voter)
      && l.polls[pollId].phase != Completed
    ensures r.Ok? ==>
      var p := l.polls[pollId];
      var c := l.commitments[(pollId, voter)];
      && r.value == RefundPerVote(p) * c.numVotes
      && r.state.commitments == l.commitments[(pollId, voter) := c.(revealed := true)]
      && r.state.polls == l.polls[pollId := p.(totalWeiRefunded := p.totalWeiRefunded + r.value)]
      && r.state.candidates == l.candidates
      && r.state.(commitments := l.commitments, polls := l.polls) == l
  {
    if !l.stopped || !Redeemable(l, hash, pollId, candidateId, salt, voter) then Revert
    else if l.polls[pollId].phase == Completed then Revert
    else
      var (l1, refund) := Redeem(l, pollId, voter);
      Ok(l1, refund)
  }

  /** The vote counts of the poll's candidates, candidate 1 first. */
  function Tallies(l: Ledger, pollId: nat): (votes: seq<nat>)
    requires pollId in l.polls
    ensures |votes| == l.polls[pollId].candidateCount
    ensures forall i :: 0 <= i < |votes| && (pollId, i + 1) in l.candidates ==>
              votes[i] == l.candidates[(pollId, i + 1)].voteCount
  {
    seq(l.polls[pollId].candidateCount,
        i => if (pollId, i + 1) in l.candidates then l.candidates[(pollId, i + 1)].voteCount else 0)
  }

  /** Once the reveal window is over, anyone may complete the poll: it reports
      the winner and sends the unrefunded deposits to the charity. */
  function CompletePoll(l: Ledger, pollId: nat, now: nat): (r: Outcome<Completion>)
    ensures !r.NoOp?
    ensures r.Ok? <==>
      && pollId in l.polls
      && l.polls[pollId].phase != Completed
      && now >= EndReveal(l.polls[pollId].startTime, l.polls[pollId].closeTime)
      && l.polls[pollId].totalWeiRefunded <= l.polls[pollId].totalWeiPaid
    ensures r.Ok? ==>
      var p := l.polls[pollId];
      && r.value.donated == p.totalWeiPaid - p.totalWeiRefunded
      && (r.value.winner != 0 ==> Tally.StrictTop(Tallies(l, pollId), r.value.winner))
      && (r.value.winner == 0 ==> forall w :: !Tally.StrictTop(Tallies(l, pollId), w))
      && OnlyPhaseWritten(l, r.state, pollId, Completed)
  {
    if pollId !in l.polls then Revert
    else
      var p := l.polls[pollId];
      if p.phase == Completed then Revert
      else if now < EndReveal(p.startTime, p.closeTime) then Revert
      else if p.totalWeiRefunded > p.totalWeiPaid then Revert
      else
        Ok(WritePhase(l, pollId, Completed),
           Completion(Tally.Winner(Tallies(l, pollId)), p.totalWeiPaid - p.totalWeiRefunded))
  }
}

=== FILE: ledger_facts.dfy ===
/** Behaviours of the ledger that the contract's test suite exercises, stated
for all inputs rather than for the suite's particular accounts and numbers. */
module LedgerFacts {
  import opened Schedule
  import opened Ledger
  import Tally

  /** The first call after the reveal phase has begun, if it is a commit, moves
      the poll to the reveal phase (code 2) without reverting and commits nothing. */
  lemma LateCommitOnlyAdvancesPhase(l: Ledger, pollId: nat, hash: Digest, numVotes: nat, value: nat,
                                    voter: Addr, now: nat)
    requires !l.stopped && pollId in l.polls
    requires l.polls[pollId].phase == Commit
    requires l.polls[pollId].startTime < l.polls[pollId].closeTime <= now
    ensures var r := CommitVote(l, pollId, hash, numVotes, value, voter, now);
            && r.NoOp?
            && r.state.polls[pollId].phase.Code() == 2
            && r.state.polls[pollId].totalVotesCommitted == l.polls[pollId].totalVotesCommitted
            && r.state.polls[pollId].totalWeiPaid == l.polls[pollId].totalWeiPaid
            && r.state.commitments == l.commitments
  {
  }

  /** Without a boundary crossed, a call in the wrong phase reverts: a commit
      before the commit phase, a reveal before the reveal phase. */
  lemma EarlyCallsRevert(l: Ledger, hash: HashFn, pollId: nat, h: Digest, numVotes: nat, value: nat,
                         candidateId: nat, salt: Salt, voter: Addr, now: nat)
    requires pollId in l.polls
    ensures l.polls[pollId].phase == Created && now < l.polls[pollId].startTime ==>
              CommitVote(l, pollId, h, numVotes, value, voter, now) == Revert
    ensures l.polls[pollId].phase == Commit && now < l.polls[pollId].closeTime ==>
              RevealVote(l, hash, pollId, candidateId, salt, voter, now) == Revert
  {
  }

  /** No reveal succeeds once the reveal window is over, and after completion
      every reveal reverts, even if the stored phase was left behind. */
  lemma LateRevealRejected(l: Ledger, hash: HashFn, pollId: nat, candidateId: nat, salt: Salt,
                           voter: Addr, now: nat)
    requires pollId in l.polls
    ensures now >= EndReveal(l.polls[pollId].startTime, l.polls[pollId].closeTime) ==>
              !RevealVote(l, hash, pollId, candidateId, salt, voter, now).Ok?
    ensures l.polls[pollId].phase == Completed ==>
              RevealVote(l, hash, pollId, candidateId, salt, voter, now) == Revert
  {
  }

  /** Paying one unit less than the quadratic cost is rejected, in any phase. */
  lemma UnderpaymentRejected(l: Ledger, pollId: nat, h: Digest, numVotes: nat, voter: Addr, now: nat)
    requires pollId in l.polls
    requires QuadraticCost(numVotes, l.polls[pollId].firstVoteCost) >= 1
    ensures !CommitVote(l, pollId, h, numVotes, QuadraticCost(numVotes, l.polls[pollId].firstVoteCost) - 1, voter, now).Ok?
  {
  }

  /** With a hash that separates its inputs, a voter can only open their
      commitment with the candidate and salt it was made from; replaying
      another voter's tuple fails, both as a reveal and as a withdraw. */
  lemma OnlyOwnTupleOpens(l: Ledger, hash: HashFn, pollId: nat, voter: Addr, candidateId: nat, salt: Salt,
                          committedCandidate: nat, committedSalt: Salt, now: nat)
    requires forall a, b, c, d, a', b', c', d' :: hash(a, b, c, d) == hash(a', b', c', d') ==>
               a == a' && b == b' && c == c' && d == d'
    requires (pollId, voter) in l.commitments
    requires l.commitments[(pollId, voter)].hash
             == hash(pollId, l.commitments[(pollId, voter)].numVotes, committedCandidate, committedSalt)
    requires (candidateId, salt) != (committedCandidate, committedSalt)
    ensures !RevealVote(l, hash, pollId, candidateId, salt, voter, now).Ok?
    ensures !Withdraw(l, hash, pollId, candidateId, salt, voter).Ok?
  {
  }

  /** Dividing a multiple of `n` by `n` is exact. */
  lemma ExactQuotient(a: nat, n: nat)
    requires n >= 1
    ensures (a * n) / n == a
  {
    var q := (a * n) / n;
    var r := (a * n) % n;
    assert a * n == q * n + r && 0 <= r < n;
    DifferenceTimes(a, q, n);
    assert (a - q) * n == r;
    if a > q {
      ScaledAtLeast(a - q, n);
    } else if a < q {
      ScaledAtLeast(q - a, n);
    }
  }

  lemma DifferenceTimes(a: int, q: int, n: int)
    ensures (a - q) * n == a * n - q * n
  {
  }

  /** A positive multiple of `n` is at least `n`. */
  lemma ScaledAtLeast(k: int, n: int)
    requires k >= 1 && n >= 1
    ensures k * n >= n
  {
  }

  /** A sole committer gets the whole deposit back: the refund formula returns
      exactly what `numVotes` votes cost. */
  lemma SoleCommitterFullRefund(p: Poll, numVotes: nat)
    requires numVotes >= 1
    requires p.totalVotesCommitted == numVotes
    requires p.totalWeiPaid == QuadraticCost(numVotes, p.firstVoteCost)
    ensures RefundPerVote(p) * numVotes == p.totalWeiPaid
  {
    assert p.totalWeiPaid == (numVotes * p.firstVoteCost) * numVotes;
    ExactQuotient(numVotes * p.firstVoteCost, numVotes);
  }

  /** A poll whose time stamps do not fit the ledger's 32-bit fields is refused. */
  lemma OversizedPollRejected(l: Ledger, description: string, charity: Addr, caller: Addr, now: nat)
    ensures MakePoll(l, 43000000000, 43000000001, 43000000000, description, charity, caller, now) == Revert
  {
  }

  /** The ledger after `n` calls of `AddCandidate` by the same caller. */
  function AddCandidates(l: Ledger, pollId: nat, name: string, caller: Addr, n: nat): Ledger
    decreases n
  {
    if n == 0 then l
    else
      var l' := AddCandidates(l, pollId, name, caller, n - 1);
      AddCandidate(l', pollId, name, caller).After(l')
  }

  /** Starting from a poll without candidates, the admin's first 255
      registrations succeed and every later one fails. */
  lemma {:induction false} CandidateCap(l: Ledger, pollId: nat, name: string, caller: Addr, n: nat)
    requires pollId in l.polls && l.polls[pollId].admin == caller
    requires l.polls[pollId].candidateCount == 0
    ensures var l' := AddCandidates(l, pollId, name, caller, n);
            && pollId in l'.polls && l'.polls[pollId].admin == caller
            && l'.polls[pollId].candidateCount == (if n < MaxCandidates then n else MaxCandidates)
    ensures AddCandidate(AddCandidates(l, pollId, name, caller, n), pollId, name, caller).Ok? <==> n < 255
    decreases n
  {
    if n > 0 {
      CandidateCap(l, pollId, name, caller, n - 1);
    }
  }

  /** The test suite's outcomes: candidate 1 wins 5 to 0 and 5 to 3, and 5 to 5 is a tie. */
  lemma SuiteWinners()
    ensures Tally.Winner([5, 0]) == 1
    ensures Tally.Winner([5, 3]) == 1
    ensures Tally.Winner([5, 5]) == 0
  {
    assert Tally.StrictTop([5, 0], 1);
    assert Tally.StrictTop([5, 3], 1);
  }
}

=== FILE: make_poll_form.dfy ===
/** The poll-creation form of the front end.

The form keeps three instants: the start of the commit phase, the start of
the reveal phase ("close"), and the end of the reveal phase it displays
("complete"). On submission it checks them in order, reports the first
problem only, and otherwise asks the ledger to create the poll. Times are in
whole seconds.
 */
module MakePollForm {

  /** A start may lie up to seven minutes in the past when the form is submitted. */
  const StartGrace: int := 7 * 60

  /** The commit window proposed when a start time is saved. */
  const DefaultWindow: int := 10 * 60

  const PastStartAlert: string := "Poll must start after the current time."
  const OrderAlert: string := "Commit Phase must start before Reveal Phase."
  const CostAlert: string := "First vote must cost at least 1 Wei."

  datatype FormTimes = FormTimes(start: int, close: int, complete: int)

  /** What the form opens with at `now`: a commit window of ten minutes
      starting now, and an equally long reveal window after it. */
  function InitialTimes(now: int): (t: FormTimes)
    ensures t.start == now
    ensures t.close - t.start == DefaultWindow
    ensures t.complete - t.close == t.close - t.start
  {
    FormTimes(now, now + DefaultWindow, now + 2 * DefaultWindow)
  }

  /** Saving a start time proposes a ten-minute commit window and an equally long reveal window. */
  function SaveStartTime(t: FormTimes): (t': FormTimes)
    ensures t'.start == t.start
    ensures t'.close - t'.start == DefaultWindow
    ensures t'.complete - t'.close == t'.close - t'.start
  {
    FormTimes(t.start, t.start + DefaultWindow, t.start + 2 * DefaultWindow)
  }

  /** Saving a close time makes the reveal window as long as the commit window. */
  function SaveCloseTime(t: FormTimes): (t': FormTimes)
    ensures t'.start == t.start && t'.close == t.close
    ensures t'.complete - t'.close == t'.close - t'.start
  {
    t.(complete := t.close + (t.close - t.start))
  }

  /** The outcome of pressing submit: an alert, or a creation request to the ledger. */
  datatype Submission =
    | Alert(message: string)
    | Request(startTime: int, closeTime: int, firstVoteCost: int, description: string, charity: string)

  /** The form's checks, in order: the start is not too far in the past, the
      reveal phase starts after the commit phase, the first vote costs at least 1. */
  function Submit(now: int, t: FormTimes, firstVoteCost: int, description: string, charity: string): (s: Submission)
    ensures s.Request? <==> now <= t.start + StartGrace && t.start < t.close && firstVoteCost >= 1
    ensures s.Request? ==> s == Request(t.start, t.close, firstVoteCost, description, charity)
    ensures now > t.start + StartGrace ==> s == Alert(PastStartAlert)
    ensures now <= t.start + StartGrace && t.close <= t.start ==> s == Alert(OrderAlert)
    ensures now <= t.start + StartGrace && t.start < t.close && firstVoteCost < 1 ==> s == Alert(CostAlert)
  {
    if now > t.start + StartGrace then Alert(PastStartAlert)
    else if t.close <= t.start then Alert(OrderAlert)
    else if firstVoteCost < 1 then Alert(CostAlert)
    else Request(t.start, t.close, firstVoteCost, description, charity)
  }

  /** The form as it opens, submitted at once with a positive cost, asks for
      a poll that starts now with the default commit window. */
  lemma OpenedFormIsSubmittable(now: int, firstVoteCost: int, description: string, charity: string)
    requires firstVoteCost >= 1
    ensures Submit(now, InitialTimes(now), firstVoteCost, description, charity)
              == Request(now, now + DefaultWindow, firstVoteCost, description, charity)
  {
  }

  /** Saving a start time always yields a schedule the form's order check
      accepts, and submitting it within the grace period with a positive cost
      sends it to the ledger unchanged. */
  lemma SavedStartIsSubmittable(t: FormTimes, now: int, firstVoteCost: int, description: string, charity: string)
    requires now <= t.start + StartGrace && firstVoteCost >= 1
    ensures var t' := SaveStartTime(t);
            Submit(now, t', firstVoteCost, description, charity)
              == Request(t.start, t.start + DefaultWindow, firstVoteCost, description, charity)
  {
  }
}

=== FILE: poll_lists.dfy ===
/** The poll tables of the front end.

Both tables are built from the ledger's event log. Each poll's status is
derived from its schedule and the browser clock, not read from the ledger.
- The admin table lists the polls the user created. It drops the polls the
  user later handed to someone else and then adds the polls handed to the
  user.
- The voter table lists one row per approval of the user.
 */
module PollLists {
  import opened Schedule

  const CreatedPhaseString: string := "Created"
  const CommitPhaseString: string := "Commit Phase"
  const RevealPhaseString: string := "Reveal Phase"
  const CompletedPhaseString: string := "Completed"

  /** The text shown for each phase. */
  function StatusText(ph: Phase): string {
    match ph
    case Created => CreatedPhaseString
    case Commit => CommitPhaseString
    case Reveal => RevealPhaseString
    case Completed => CompletedPhaseString
  }

  /** The status of a poll at `now`, from its start and close times. */
  function DerivedStatus(now: int, startTime: int, closeTime: int): (status: string)
    ensures status == CreatedPhaseString <==> now < startTime
    ensures status == CommitPhaseString <==> startTime <= now < closeTime
    ensures status == RevealPhaseString <==> closeTime <= now < EndReveal(startTime, closeTime)
    ensures status == CompletedPhaseString <==>
              startTime <= now && closeTime <= now && EndReveal(startTime, closeTime) <= now
  {
    StatusText(ScheduledPhase(now, startTime, closeTime))
  }

  /** Where a status stands in the order of phases. */
  function StatusRank(status: string): nat {
    if status == CreatedPhaseString then 0
    else if status == CommitPhaseString then 1
    else if status == RevealPhaseString then 2
    else 3
  }

  /** For a poll whose reveal phase starts after its commit phase, the status
      shown never moves backward as the clock advances. */
  lemma StatusNeverRegresses(startTime: int, closeTime: int, t1: int, t2: int)
    requires startTime < closeTime
    requires t1 <= t2
    ensures StatusRank(DerivedStatus(t1, startTime, closeTime)) <= StatusRank(DerivedStatus(t2, startTime, closeTime))
  {
  }

  /** The arguments of a logged event that the tables use. */
  datatype PollEvent = PollEvent(pollId: nat, description: string, startTime: int, closeTime: int)

  /** One table row. */
  datatype Row = Row(pollId: nat, description: string, status: string)

  /** The row a poll gets at `now`. */
  function RowFor(e: PollEvent, now: int): Row {
    Row(e.pollId, e.description, DerivedStatus(now, e.startTime, e.closeTime))
  }

  /** One row per event, in event order, each with the event's poll and its derived status. */
  method StatusRows(events: seq<PollEvent>, now: int) returns (rows: seq<Row>)
    ensures |rows| == |events|
    ensures forall i :: 0 <= i < |rows| ==>
      && rows[i].pollId == events[i].pollId
      && rows[i].description == events[i].description
      && rows[i].status == DerivedStatus(now, events[i].startTime, events[i].closeTime)
  {
    rows := [];
    var i := 0;
    while i < |events|
      invariant 0 <= i <= |events|
      invariant |rows| == i
      invariant forall j :: 0 <= j < i ==> rows[j] == RowFor(events[j], now)
    {
      rows := rows + [RowFor(events[i], now)];
      i := i + 1;
    }
  }

  /** Removes a handed-over poll the way the admin table does: at the first
      row with that poll id the list is cut (`splice(k)` without a count), so
      that row and every row after it are gone. */
  method SpliceAway(polls: seq<Row>, pollId: nat) returns (out: seq<Row>)
    ensures |out| <= |polls| && out == polls[..|out|]
    ensures forall j :: 0 <= j < |out| ==> out[j].pollId != pollId
    ensures |out| < |polls| ==> polls[|out|].pollId == pollId
  {
    out := polls;
    var k := 0;
    while k < |out|
      invariant |out| <= |polls| && out == polls[..|out|]
      invariant |out| == |polls| ==> k <= |out|
      invariant |out| < |polls| ==> k == |out| + 1 && polls[|out|].pollId == pollId
      invariant forall j :: 0 <= j < k && j < |out| ==> out[j].pollId != pollId
      decreases |polls| + 1 - k
    {
      if out[k].pollId == pollId {
        out := out[..k];
      }
      k := k + 1;
    }
  }

  /** Applies `SpliceAway` for every poll the user handed over, in log order.
      What survives is the longest prefix of the list that holds none of them. */
  method DropHandedOver(polls: seq<Row>, formerIds: seq<nat>) returns (kept: seq<Row>)
    ensures |kept| <= |polls| && kept == polls[..|kept|]
    ensures forall j :: 0 <= j < |kept| ==> kept[j].pollId !in formerIds
    ensures |kept| < |polls| ==> polls[|kept|].pollId in formerIds
  {
    kept := polls;
    var j := 0;
    while j < |formerIds|
      invariant 0 <= j <= |formerIds|
      invariant |kept| <= |polls| && kept == polls[..|kept|]
      invariant forall i :: 0 <= i < |kept| ==> kept[i].pollId !in formerIds[..j]
      invariant |kept| < |polls| ==> polls[|kept|].pollId in formerIds[..j]
    {
      var before := kept;
      kept := SpliceAway(kept, formerIds[j]);
      assert formerIds[..j + 1] == formerIds[..j] + [formerIds[j]];
      if |kept| < |before| {
        assert polls[|kept|] == before[|kept|];
      }
      j := j + 1;
    }
    assert formerIds[..j] == formerIds;
  }

  /** The admin table: the user's created polls, cut at the first poll the user
      handed over, followed by one row per poll handed to the user. The rows
      added last take their status from the second clock reading `now2`. */
  method PollsAdminFor(created: seq<PollEvent>, formerIds: seq<nat>, received: seq<PollEvent>,
                       now: int, now2: int) returns (rows: seq<Row>)
    ensures |received| <= |rows| <= |created| + |received|
    ensures var m := |rows| - |received|;
      && (forall i :: 0 <= i < m ==> rows[i] == RowFor(created[i], now) && created[i].pollId !in formerIds)
      && (m < |created| ==> created[m].pollId in formerIds)
      && (forall x :: 0 <= x < |received| ==> rows[m + x] == RowFor(received[x], now2))
  {
    var own := StatusRows(created, now);
    var kept := DropHandedOver(own, formerIds);
    var handed := StatusRows(received, now2);
    rows := kept + handed;
    forall i | 0 <= i < |kept|
      ensures rows[i] == RowFor(created[i], now)
    {
      assert kept[i] == own[i];
    }
  }

  /** The voter table: one row per approval of the user; later removals are
      not subtracted. */
  method PollsVotingIn(approvals: seq<PollEvent>, now: int) returns (rows: seq<Row>)
    ensures |rows| == |approvals|
    ensures forall i :: 0 <= i < |rows| ==> rows[i] == RowFor(approvals[i], now)
  {
    rows := StatusRows(approvals, now);
  }

  /** The label of the voter table's button for a row's status; an unknown
      status leaves the button without a label. */
  function ButtonText(status: string): string {
    if status == CreatedPhaseString then "See Poll Info"
    else if status == CommitPhaseString then "Commit a Vote"
    else if status == RevealPhaseString then "Reveal Vote"
    else if status == CompletedPhaseString then "See Poll Info"
    else ""
  }

  /** The voter is offered to commit exactly during the commit phase, to reveal
      exactly during the reveal phase, and otherwise only to look at the poll. */
  lemma ButtonFollowsSchedule(now: int, startTime: int, closeTime: int)
    ensures ButtonText(DerivedStatus(now, startTime, closeTime)) == "Commit a Vote" <==> startTime <= now < closeTime
    ensures ButtonText(DerivedStatus(now, startTime, closeTime)) == "Reveal Vote" <==>
              closeTime <= now < EndReveal(startTime, closeTime)
    ensures ButtonText(DerivedStatus(now, startTime, closeTime)) == "See Poll Info" <==>
              now < startTime || (startTime <= now && closeTime <= now && EndReveal(startTime, closeTime) <= now)
  {
  }
}

=== FILE: schedule.dfy ===
/** The phase clock shared by the ledger and the front end.

A poll is scheduled by two instants: the start of its commit phase and the
start of its reveal phase (the front end calls them start time and close
time). The reveal window is as long as the commit window, so the reveal phase
ends at `close + (close - start)`.
 */
module Schedule {

  /** The four phases of a poll, in the order they are entered. */
  datatype Phase = Created | Commit | Reveal | Completed {

    /** The number the ledger reports for the phase (0 to 3). */
    function Code(): nat {
      match this
      case Created => 0
      case Commit => 1
      case Reveal => 2
      case Completed => 3
    }
  }

  /** The instant the reveal phase ends: the reveal window mirrors the commit window. */
  function EndReveal(start: int, close: int): int {
    close + (close - start)
  }

  /** The phase a poll is in at `now` according to its schedule alone. */
  function ScheduledPhase(now: int, start: int, close: int): (ph: Phase)
    ensures ph == Created <==> now < start
    ensures ph == Commit <==> start <= now < close
    ensures ph == Reveal <==> close <= now < EndReveal(start, close)
    ensures ph == Completed <==> start <= now && close <= now && EndReveal(start, close) <= now
  {
    if now < start then Created
    else if now < close then Commit
    else if now < EndReveal(start, close) then Reveal
    else Completed
  }

  /** For a well-formed schedule the phase never moves backward as time passes. */
  lemma ScheduledPhaseMonotone(start: int, close: int, t1: int, t2: int)
    requires start < close
    requires t1 <= t2
    ensures ScheduledPhase(t1, start, close).Code() <= ScheduledPhase(t2, start, close).Code()
  {
  }
}

=== FILE: tally.dfy ===
/** Choosing the winner of a completed poll.

`votes[i]` is the vote count of candidate `i + 1` (candidate ids start at 1).
The winner is the candidate whose count is positive and strictly greater than
every other candidate's; when no such candidate exists (the maximum is shared,
every count is zero, or there are no candidates) the result is the tie
sentinel 0.
 */
module Tally {

  /** Candidate `w` (1-based) strictly leads every other candidate with a positive count. */
  ghost predicate StrictTop(votes: seq<nat>, w: nat) {
    && 1 <= w <= |votes|
    && votes[w - 1] > 0
    && forall j :: 0 <= j < |votes| && j != w - 1 ==> votes[j] < votes[w - 1]
  }

  /** The state of a left-to-right scan: the current leader (0 for none), the
      highest count seen (starting from 0), and whether that count is shared. */
  datatype Scan = Scan(leader: nat, top: nat, tied: bool)

  /** What a scan over the first `n` candidates knows. */
  ghost predicate ScanFacts(votes: seq<nat>, n: nat, s: Scan)
    requires n <= |votes|
  {
    && (forall j :: 0 <= j < n ==> votes[j] <= s.top)
    && (s.leader == 0 ==> s.top == 0)
    && (s.leader != 0 ==> 1 <= s.leader <= n && votes[s.leader - 1] == s.top && s.top > 0)
    && (!s.tied ==> forall j :: 0 <= j < n && j != s.leader - 1 ==> votes[j] < s.top)
    && (s.tied ==> exists j :: 0 <= j < n && j != s.leader - 1 && votes[j] == s.top)
  }

  /** Scans the first `n` candidates: a strictly higher count takes the lead,
      an equal count marks the top as shared. */
  function ScanTo(votes: seq<nat>, n: nat): (s: Scan)
    requires n <= |votes|
    ensures ScanFacts(votes, n, s)
    decreases n
  {
    if n == 0 then Scan(0, 0, false)
    else
      var s := ScanTo(votes, n - 1);
      var v := votes[n - 1];
      if v > s.top then Scan(n, v, false)
      else if v == s.top then s.(tied := true)
      else s
  }

  /** The winning candidate id, or 0 for a tie. */
  function Winner(votes: seq<nat>): (w: nat)
    ensures w != 0 ==> StrictTop(votes, w)
    ensures w == 0 ==> forall c :: !StrictTop(votes, c)
    ensures w <= |votes|
  {
    var s := ScanTo(votes, |votes|);
    if s.tied then 0 else s.leader
  }
}
